=== FILE: README.md ===
# Semantic cache, query router and dispatcher of a retrieval-augmented QA service

This Dafny project models the decision logic of a question-answering service. A compound user
query is split into sub-questions. Each sub-question is routed to an action and dispatched through
a fixed action→handler table. Each handler answers from a semantic cache, from retrieved document
chunks plus a generator, or from a web search. The project has three parts:

- `SemanticCache` (`semantic_cache.dfy`, with `Vectors` in `vectors.dfy`): an immutable record of
  four parallel collections (questions, answers, contexts, embedding rows) plus a flat
  inner-product index. It has pure `Get`, `Add` and `InvalidateForContext`, the `_normalize` step,
  and `Save`/`Load` as a snapshot of the state. The state invariant is `Valid`: equal lengths, the
  cache is empty exactly when there are no embeddings and no index, and the index holds exactly the
  embedding rows.
- `Router` (`router.dfy`): the greedy `\{.*\}` (DOTALL) extraction, from the first `{` to the
  last `}`. It also holds the fail-open `route_query` and `split_subqueries`, which has no such
  protection.
- `Pipeline` (`pipeline.dfy`): the route table and the three handlers. `Run` is a fold over the
  sub-questions that builds the result map and one log record per sub-question. Properties that
  relate several calls are in `PipelineProperties`. The vector-store guard used by the retrieval
  handler is in `Retriever` (`retriever.dfy`). The JSON values the router can decode are in `Json`
  (`json.dfy`), and `Option`/`Result` are in `Wrappers` (`wrappers.dfy`).

Collaborators are fields of two datatypes, passed as parameters:

- `VectorOps` holds the embedder, the square root used for the norm, the similarity function, the
  index's top-1 search and the embedding dimension. The top-1 search may return any maximiser of
  the similarity; which one it picks on a tie is left open. Hit/miss equivalences are therefore
  stated for a unique top-1 row.
- `Collaborators` holds the vector store, the generator, the web client and the router's language
  model with its JSON decoders.

Exceptions are `Err` values. `Run` returns `Done(state)` or `Raised(error, state)`. The state keeps
the log records already written and the cache saves already made.

`Run` takes an `Invocation` mode:

- `InvokeTwice` is the code as written. The handler is called at src/rag/pipeline.py:91 for the
  log and again at :100 for the stored result.
- `InvokeOnce` is the corrected behaviour (see Findings).

Every lemma about `Run`, `Loop` and `Step` holds for both modes unless its statement fixes one.

Two behaviours of the code are worth stating on their own:

- The router's extraction is greedy, from the first `{` to the last `}` (src/rag/router.py:24).
  A reply holding two separate objects yields the whole span across both.
- A web-search cache hit returns the cached answer with the hit marker in front
  (src/rag/pipeline.py:57-58).

## Model

| member | source | states |
|---|---|---|
| Vectors.Normalize | src/rag/semantic_cache.py:68-71 | normalising keeps the vector's length (number of components) |
| Vectors.NormalizeZeroVector | src/rag/semantic_cache.py:68-71 | a zero vector comes back unchanged, so there is no division by a zero norm |
| Vectors.SumSqZeroIffZero | src/rag/semantic_cache.py:70-71 | the norm is zero exactly when every component is zero, which is the case the guard protects |
| Vectors.SumSqScaled | src/rag/semantic_cache.py:68-71 | a vector whose every component is `k` times the original's has `k * k` times its sum of squares |
| Vectors.NormalizeUnitNorm | src/rag/semantic_cache.py:68-71 | a non-zero vector is normalised to squared norm 1 |
| Vectors.NormalizeIdempotent | src/rag/semantic_cache.py:68-71 | normalising twice gives the same vector as normalising once |
| SemanticCache.Empty | src/rag/semantic_cache.py:21-25 | a fresh cache has no entries and satisfies the invariant for every dimension |
| SemanticCache.Get | src/rag/semantic_cache.py:73-94 | no index, no embeddings or no questions gives a miss; any answer returned is the stored answer of a top-1 row whose similarity is at least 1 - threshold and whose context equals the caller's; for a unique top-1 row, a hit happens exactly when both conditions hold |
| SemanticCache.Add | src/rag/semantic_cache.py:96-113 | the invariant is kept; the entries are the old ones followed by exactly one new entry (question, answer, context, normalised embedding); the index exists and has the embedding's dimension |
| SemanticCache.KeepFrom | src/rag/semantic_cache.py:118 | the kept positions are in range and have a context different from the argument; their number is the total minus the number of matching contexts |
| SemanticCache.PickKeepIsFilter | src/rag/semantic_cache.py:118-121 | selecting the kept positions from every collection gives the same entries as the reference filter, in the original order |
| SemanticCache.FilterOutDropsContext | src/rag/semantic_cache.py:118 | no entry left by the filter has the removed context |
| SemanticCache.InvalidateForContext | src/rag/semantic_cache.py:116-132 | the entries become exactly the filtered entries in order; the count drops by the number of matching contexts; no survivor has the context; nothing surviving means no embeddings and no index; the invariant is kept |
| SemanticCache.Save | src/rag/semantic_cache.py:54-66 | the snapshot holds every entry, position by position, in the cache's order; absent embeddings are written as an empty list |
| SemanticCache.Load | src/rag/semantic_cache.py:28-52 | a missing file gives an empty cache; the threshold is the configured one |
| SemanticCache.SaveLoadRoundTrip | src/rag/semantic_cache.py:28-66 | loading what was saved rebuilds the same cache, index included |
| SemanticCache.MutationsSurviveReload | src/rag/semantic_cache.py:28-66 | reloading a snapshot of the state `add` or `invalidate_for_context` produced gives back that state |
| SemanticCache.GetAfterAdd | src/rag/semantic_cache.py:82-113 | after `add(q, a, ctx)`, looking up `q` with `ctx` returns `a` and with any other context misses, when the new row is the unique top-1 neighbour and is similar enough to itself |
| SemanticCache.ThresholdBoundary | src/rag/semantic_cache.py:88-91 | similarity exactly 1 - threshold to the unique top-1 row with an equal context is a hit; anything below is a miss |
| SemanticCache.ContextMismatchIsMiss | src/rag/semantic_cache.py:82-94 | if the unique top-1 row has another context, the lookup misses even when some other row would pass both conditions |
| SemanticCache.InvalidateThenGetMisses | src/rag/semantic_cache.py:116-132 | after invalidating a context, every lookup under that context misses; if every entry had that context, every lookup misses |
| SemanticCache.InvalidateKeepsOtherHits | src/rag/semantic_cache.py:73-132 | a lookup that hits a uniquely best entry under another context still returns that entry's answer after a context is invalidated: the entry survives and stays uniquely best |
| SemanticCache.FilterOutKeepsUniqueBest | src/rag/semantic_cache.py:116-121 | an entry outside the removed context that scores strictly above all others survives the filter and still scores strictly above every other survivor |
| SemanticCache.FilterOutSubset | src/rag/semantic_cache.py:116-121 | every entry the filter keeps is an entry of the original cache |
| Retriever.Retrieve | src/rag/retriever.py:15-26 | an action without a collection fails with the invalid-action message; a store failure fails with "Qdrant retrieval failed: " followed by the store's error; otherwise the store's chunks come back unchanged |
| Router.FirstIndexOf | src/rag/router.py:24 | the position returned holds the character and no earlier position does; no position means the character does not occur |
| Router.LastIndexOf | src/rag/router.py:24 | the position returned holds the character and no later position does; no position means the character does not occur |
| Router.GreedyBraceMatch | src/rag/router.py:24-25 | a match exists exactly when some `{` precedes some `}`, and it is the span from the first `{` to the last `}` |
| Router.GreedyMatchSpansBlocks | src/rag/router.py:24 | when a reply has no `{` before its first object and no `}` after its last one, the match is everything from the first object's `{` to the last object's `}`, the text between them included |
| Router.GreedyMatchBetween | src/rag/router.py:24 | a text framed by a prefix without `{` and a suffix without `}`, running from `{` to `}`, is exactly the match |
| Router.RouteQuery | src/rag/router.py:13-32 | never fails: when the model answers, a span is found and it decodes, the decoded object is returned verbatim; otherwise the result is the fallback, whose action is INTERNET_QUERY, whose answer is empty and whose reason is "Router error: " followed by the failure: the model's error, the no-match error of a reply without a braced span, or the decoder's error |
| Router.RouteDoesNotValidateAction | src/rag/router.py:26 | a decoded action outside the known set comes back as decoded |
| Router.SplitSubqueries | src/rag/router.py:34-44 | a model failure or a decoding failure reaches the caller unchanged |
| Pipeline.Routes | src/rag/pipeline.py:23-31 | the table has exactly the three actions; both document actions go to retrieve-and-respond and have a collection; INTERNET_QUERY goes to web search exactly when web search is allowed, and to the refusal otherwise |
| Pipeline.LookupHandler | src/rag/pipeline.py:82 | a list or dict action raises the unhashable-type error; any other action has a handler exactly when it is one of the table's strings |
| Pipeline.RetrieveAndRespondHandler | src/rag/pipeline.py:36-51 | a retrieval failure is re-raised with the retriever's own error; no chunks gives the no-content message with the cache untouched; a truthy cached answer is returned with the hit marker and the cache untouched; otherwise a generator failure is re-raised with its own error, and a generated answer is returned untagged after one entry is appended; the threshold never changes |
| Pipeline.InternetHandler | src/rag/pipeline.py:53-74 | never raises; looks up and stores under the empty context; a hit is tagged; a web failure becomes "Internet query failed: ..." with the cache untouched; a success is returned (defaulting to "No response received.") after one entry is appended; the threshold never changes |
| Pipeline.Invoke | src/rag/pipeline.py:33-74 | only the retrieval handler can fail; the disabled-web handler returns the fixed message and leaves the cache alone |
| Pipeline.HandleSubquery | src/rag/pipeline.py:89-100 | an exception from the first call is re-raised with nothing logged or stored; otherwise the record carries the action, the reason, and the hit flag and 200-character preview of the first call's answer; called once, a successful call completes the step with its answer and cache; called twice, the second call's exception is re-raised keeping the first call's cache, and its success completes the step with the second answer and cache; on completion exactly one record is added and only the sub-question's result changes |
| Pipeline.RouteOf | src/rag/pipeline.py:80-83 | a router failure gives action INTERNET_QUERY and the fallback's reason, "Router error: " followed by the failure; otherwise the decoded object's action (None when absent) and reason (empty when absent) |
| Pipeline.Step | src/rag/pipeline.py:80-104 | one loop iteration adds exactly one log record and one result for its sub-question, or raises with log and results unchanged; an unhashable action raises the unhashable-type error; an action without a handler stores "Unsupported action: <action>" and logs the unsupported error with the route's action and reason, cache untouched; a dispatched action is the handled branch with the route's action and reason; the cache invariant is kept |
| Pipeline.Loop | src/rag/pipeline.py:79-104 | the cache invariant holds after any number of sub-questions, including after an exception |
| Pipeline.LoopLogsInOrder | src/rag/pipeline.py:79-104 | a completed loop appended exactly one log record per sub-question, in sub-question order, each naming the user query |
| Pipeline.LoopStoresEveryResult | src/rag/pipeline.py:79-102 | a completed loop has a result for every sub-question and no other new key |
| Pipeline.LoopKeepsOtherResults | src/rag/pipeline.py:79-102 | a key that is not one of the sub-questions keeps its result |
| Pipeline.LoopRaisedLogsPrefix | src/rag/pipeline.py:79-104 | an exception leaves in the log one record for each sub-question of a proper prefix of the list, in order, and none for the rest |
| Pipeline.Run | src/rag/pipeline.py:76-105 | a splitting failure raises with nothing logged and the cache unchanged; a completed run logged one record per sub-question in order and has results for exactly the sub-questions |
| PipelineProperties.HitMarkerIffServedFromCache | src/rag/pipeline.py:36-74 | when genuine generated and web content never starts with the marker, a handler's answer starts with the hit marker exactly when it was served from the cache |
| PipelineProperties.EmptyCachedAnswerIsMiss | src/rag/pipeline.py:44-51 | an empty cached answer counts as a miss: the generator's answer is returned and the cache grows by one entry |
| PipelineProperties.RetrievalOnlyForKnownCollections | src/rag/pipeline.py:23-25 | the retrieval handler is only selected for an action that has a collection |
| PipelineProperties.FallbackRouteIsDispatched | src/rag/pipeline.py:26-30 | the router's fallback decision always has a handler: web search when allowed, the refusal otherwise |
| PipelineProperties.UnsupportedAction | src/rag/pipeline.py:101-103 | an action without a handler, including a missing one (printed as None), stores "Unsupported action: <action>", logs the unsupported-action error and leaves the cache alone |
| PipelineProperties.UnhashableActionRaises | src/rag/pipeline.py:81-82 | a list or dict action aborts the run with the unhashable-type error and nothing new logged, despite the router being fail-open |
| PipelineProperties.NonRetrievalStepCompletes | src/rag/pipeline.py:33-104 | a sub-question dispatched to the web search or to the refusal always completes its step; a failed web search on a cache miss is stored as "Internet query failed: <error>" with the cache untouched, and the batch goes on |
| PipelineProperties.SingleInvocationLogMatchesResult | src/rag/pipeline.py:89-100 | with one call per sub-question, the logged hit flag and preview describe the stored answer, and the flag is true exactly when the answer was served from the cache |
| PipelineProperties.LoopConcat | src/rag/pipeline.py:79-104 | running the loop over two lists in a row is the same as running it over their concatenation |
| PipelineProperties.LastOccurrenceWins | src/rag/pipeline.py:79-100 | for a repeated sub-question the result stored at its last occurrence is the one returned |
| DoubleInvocation.TwiceStoresTaggedAfterMiss | src/rag/pipeline.py:89-100 | for any retrieval sub-question that misses, is answered `g` by the generator and whose new row is then its own unique nearest neighbour within the threshold: called twice, the stored result is the hit-tagged `g` while the log describes `g`; called once, `g` is stored and logged |
| DoubleInvocation.DoubleInvocationMislabelsHit | src/rag/pipeline.py:89-100 | as written, the scenario's first run stores the hit-marked answer while its log records a miss with the untagged answer |
| DoubleInvocation.SingleInvocationScenario | src/rag/pipeline.py:89-100 | with one call, the scenario's first run stores and logs the generated answer as a miss and leaves the cache holding exactly that answer under the retrieved chunk; the same question under the empty context misses there |
| DoubleInvocation.SingleInvocationRepeatHits | src/rag/pipeline.py:89-100 | with one call, asking the question again on that cache is served from it: the stored result carries the hit marker and the log records a hit |

## Left out

- Floating point: embeddings are `seq<real>`, the `float32` cast is not modelled, and the square
  root, similarity and FAISS top-1 search are abstract functions. `SqrtSpec` says the square root
  is exact; `SearchIsTop1` says the search returns some maximiser.
- SemanticCache.Get: the hit-exactly-when equivalence is stated only for a unique top-1 row. FAISS's
  tie-breaking is not visible, so for ties the contract says only that some maximiser passed both
  conditions.
- A dimension mismatch between a new embedding and the stored ones is excluded by the collaborator
  contract `EmbedderFixedDim`. In the code, `add` appends question, answer and context first
  (src/rag/semantic_cache.py:102-104), and only then does `np.vstack` raise ValueError
  (src/rag/semantic_cache.py:112). That leaves the three lists one longer than the embeddings, so
  the code breaks its own equal-length invariant on that path. `get` would instead fail in the
  index search (src/rag/semantic_cache.py:82). Embedder failures are not modelled.
- File I/O and the JSON codec of the cache file: `Save` and `Load` work on a `Snapshot` value.
  `Load` gets `None` for a missing file. A malformed file, missing keys or ragged embedding rows
  are not modelled.
- The router's language-model calls and `json.loads` are abstract functions returning `Result`.
  `split_subqueries` plus the `["subQuestions"]` lookup and iteration is one decoder returning a
  sequence of strings.
- The HTTP request, API key lookup and response decoding of the web search are one function
  returning a failure, no `response_text` (`None`), or the text. A decoding failure of the body is
  a failure.
- Collaborators are deterministic functions of their arguments. A generator or router that answers
  differently to the same prompt is not modelled, and neither is an answer that changes between
  the two handler calls of `run` for any reason other than the cache.
- `latency_seconds` and timestamps are left out of log records. The log is the sequence of records
  in emission order; the file-append logger is not part of this model.
- Python `str()` of a decoded number is taken as its printed form (`JNum(repr)`).
- SemanticCache.MutationsSurviveReload: `add` and `invalidate_for_context` write the file as their
  last step (src/rag/semantic_cache.py:114, :133); the mutators here return the new state only,
  and the lemma states that a snapshot of that state reloads to it, not that the file was written.
- Non-string answers: a web response whose `response_text` is null or not a string
  (src/rag/pipeline.py:69), or a generator reply whose content is None (src/rag/generator.py:19),
  is cached and then makes `answer.startswith` raise at src/rag/pipeline.py:95, ending the batch.
  Answers here are always strings, so that abort is not modelled.
- Pipeline.Run: the results are a `map`, so the insertion order of the source's dict (which the
  callers at src/rag/main.py:7, app.py:39 and src/ui/app.py:35 print in) is not kept; a repeated
  sub-question keeps its first position there. The sub-question order is kept in the log
  (`LoopLogsInOrder`).
- Pipeline.Loop: its contract states only the cache invariant. The loop's other properties are
  separate lemmas (`LoopLogsInOrder`, `LoopStoresEveryResult`, `LoopKeepsOtherResults`,
  `LoopRaisedLogsPrefix`).
- PipelineProperties.HitMarkerIffServedFromCache: holds only under `NoGenuineTag`, the assumption
  that generated and web content never starts with the hit marker. The code does not enforce this.
- The web UI, the command-line entry point and the configuration lookup (app.py, src/ui/app.py,
  src/rag/main.py, src/utils/config.py) are not part of this model.

## Findings

| source | as written | input that shows it | evidently intended | confidence | as-written member | corrected member |
|---|---|---|---|---|---|---|
| src/rag/pipeline.py:91-100 | the handler runs once to build the log record (hit flag, preview) and a second time for the stored result | "What is GPT-4?" routed to OPENAI_QUERY on an empty cache, retrieval returns one chunk, the generator answers "GPT-4 is OpenAI's model.[1]", and the embedder makes the question its own best match: the first call misses and adds the answer, the second call hits it, so the stored result carries the hit marker while the log says cache miss | call the handler once and use that answer for both the log record and the result | not executed; high | DoubleInvocation.DoubleInvocationMislabelsHit | PipelineProperties.SingleInvocationLogMatchesResult |

=== FILE: double_invocation.dfy ===
/** The handler is called twice per handled sub-question: the log describes the
    first call and the stored result comes from the second. */
module DoubleInvocation {
  import opened Wrappers
  import opened Json
  import opened SemanticCache
  import opened Router
  import opened Retriever
  import opened Pipeline
  import opened PipelineProperties

  const Question := "What is GPT-4?"
  const Chunk := "GPT-4 is a model."
  const Generated := "GPT-4 is OpenAI's model.[1]"
  const RouterReply := "{\"action\": \"OPENAI_QUERY\"}"

  /** A one-dimensional world: every text embeds to [1.0], every pair of vectors
      is a perfect match, the store returns one chunk and the model one answer. */
  function ScenarioEnv(): (env: Collaborators)
    ensures WellFormed(env.vec)
  {
    var vec := VectorOps(_ => [1.0], _ => 1.0, (_, _) => 1.0, (_, _) => 0, 1);
    var env := Collaborators(
      vec,
      (_, _, _) => Ok([Chunk]),
      (_, _) => Ok(Generated),
      _ => Err("offline"),
      RouterModel(
        _ => Ok(RouterReply),
        _ => Ok(map["action" := JStr(OpenAiQuery), "reason" := JStr("about OpenAI")]),
        _ => Ok("{\"subQuestions\": [\"What is GPT-4?\"]}"),
        _ => Ok([Question])));
    assert forall q, rows :: |rows| > 0 ==> IsTop1(vec.sim, q, rows, vec.top1(q, rows));
    env
  }

  lemma ScenarioRoutesToRetrieval()
    ensures RouteOf(ScenarioEnv(), Question).0 == JStr(OpenAiQuery)
    ensures LookupHandler(Routes(true), JStr(OpenAiQuery)) == Ok(Some(RetrieveAndRespond))
  {
    var env := ScenarioEnv();
    assert RouterReply[0] == '{' && RouterReply[|RouterReply| - 1] == '}';
    assert RouteSucceeded(env.router, Question);
  }

  /** As written: asked once on an empty cache, the stored answer carries the hit
      marker (the second call finds the entry the first call added), while the log
      records a miss with the untagged answer. */
  lemma DoubleInvocationMislabelsHit()
    ensures var o := Run(ScenarioEnv(), true, InvokeTwice, Empty(DefaultDistanceThreshold), Question);
      && o.Done?
      && Question in o.state.results && o.state.results[Question] == Tagged(Generated)
      && |o.state.log| > 0 && o.state.log[0].outcome == HandledLog(false, Generated)
  {
    var env := ScenarioEnv();
    ScenarioRoutesToRetrieval();
    var st := RunState(Empty(DefaultDistanceThreshold), map[], []);
    assert Chunks(env, Question, OpenAiQuery) == Ok([Chunk]);
    var first := Invoke(env, RetrieveAndRespond, st.cache, Question, OpenAiQuery);
    assert first == Ok(Handled(Generated, first.value.cache));
    var second := Invoke(env, RetrieveAndRespond, first.value.cache, Question, OpenAiQuery);
    assert Get(first.value.cache, env.vec, Question, [Chunk]) == Some(Generated);
    assert second.value.answer == Tagged(Generated);
    FirstCharNotMarker(Generated);
    assert Take(Generated, PreviewLength) == Generated;
    var o1 := Step(env, true, InvokeTwice, Question, st, Question);
    assert Loop(env, true, InvokeTwice, Question, st, [Question]) == o1;
  }

  /** The cache after one run of the scenario: the question with its generated
      answer under the retrieved chunk. */
  function ScenarioCache(): (c: Cache)
    ensures Valid(c, 1) && |c.questions| == 1 && c.contexts == [[Chunk]]
  {
    Add(Empty(DefaultDistanceThreshold), ScenarioEnv().vec, Question, Generated, [Chunk])
  }

  /** Corrected: with one call per sub-question the first run records a miss, stores
      the generated answer and leaves exactly the scenario cache behind; the same
      question under the empty context still misses there. */
  lemma SingleInvocationScenario()
    ensures var o := Run(ScenarioEnv(), true, InvokeOnce, Empty(DefaultDistanceThreshold), Question);
      && o.Done?
      && Question in o.state.results && o.state.results[Question] == Generated
      && |o.state.log| > 0 && o.state.log[0].outcome == HandledLog(false, Generated)
      && o.state.cache == ScenarioCache()
    ensures Get(ScenarioCache(), ScenarioEnv().vec, Question, []) == None
  {
    var env := ScenarioEnv();
    ScenarioRoutesToRetrieval();
    var st := RunState(Empty(DefaultDistanceThreshold), map[], []);
    assert Chunks(env, Question, OpenAiQuery) == Ok([Chunk]);
    var first := Invoke(env, RetrieveAndRespond, st.cache, Question, OpenAiQuery);
    assert first == Ok(Handled(Generated, ScenarioCache()));
    FirstCharNotMarker(Generated);
    assert Take(Generated, PreviewLength) == Generated;
    var o1 := Step(env, true, InvokeOnce, Question, st, Question);
    assert Loop(env, true, InvokeOnce, Question, st, [Question]) == o1;
  }

  /** Corrected, continued: asking the same question again on the scenario cache is
      served from the cache, stored with the hit marker and logged as a hit. */
  lemma SingleInvocationRepeatHits()
    ensures var again := Run(ScenarioEnv(), true, InvokeOnce, ScenarioCache(), Question);
      && again.Done?
      && Question in again.state.results && again.state.results[Question] == Tagged(Generated)
      && |again.state.log| > 0 && again.state.log[0].outcome.cacheHit
  {
    var env := ScenarioEnv();
    ScenarioRoutesToRetrieval();
    assert Chunks(env, Question, OpenAiQuery) == Ok([Chunk]);
    var st2 := RunState(ScenarioCache(), map[], []);
    var second := Invoke(env, RetrieveAndRespond, ScenarioCache(), Question, OpenAiQuery);
    assert Get(ScenarioCache(), env.vec, Question, [Chunk]) == Some(Generated);
    assert second.value.answer == Tagged(Generated);
    TaggedStartsWithMarker(Generated);
    var o2 := Step(env, true, InvokeOnce, Question, st2, Question);
    assert Loop(env, true, InvokeOnce, Question, st2, [Question]) == o2;
  }

  /** The general form of the mislabel: a retrieval sub-question that misses, is
      answered by the model with `g`, and whose new row is then its own unique
      nearest neighbour within the threshold, is logged as a miss with the preview
      of `g` while the result stored is the tagged `g` from the second call. Called
      once, the same sub-question stores `g` itself. */
  lemma TwiceStoresTaggedAfterMiss(env: Collaborators, userQuery: string, st: RunState, subq: string,
                                   action: string, reason: Json, g: string)
    requires WellFormed(env.vec) && Valid(st.cache, env.vec.dim)
    requires Chunks(env, subq, action).Ok? && |Chunks(env, subq, action).value| > 0
    requires !Truthy(Get(st.cache, env.vec, subq, Chunks(env, subq, action).value))
    requires env.generate(subq, Chunks(env, subq, action).value) == Ok(g) && g != ""
    requires UniqueBestMatch(Add(st.cache, env.vec, subq, g, Chunks(env, subq, action).value),
                             env.vec, subq, |st.cache.questions|)
    requires env.vec.sim(Embed(env.vec, subq), Embed(env.vec, subq)) >= 1.0 - st.cache.threshold
    ensures var o := HandleSubquery(env, RetrieveAndRespond, InvokeTwice, userQuery, st, subq, action, reason);
            && o.Done?
            && o.state.results[subq] == Tagged(g)
            && o.state.log[|st.log|].outcome == HandledLog(StartsWith(g, HitMarker), Take(g, PreviewLength))
    ensures var o := HandleSubquery(env, RetrieveAndRespond, InvokeOnce, userQuery, st, subq, action, reason);
            && o.Done?
            && o.state.results[subq] == g
            && o.state.log[|st.log|].outcome == HandledLog(StartsWith(g, HitMarker), Take(g, PreviewLength))
  {
    var chunks := Chunks(env, subq, action).value;
    var c1 := Add(st.cache, env.vec, subq, g, chunks);
    var first := Invoke(env, RetrieveAndRespond, st.cache, subq, action);
    assert first == Ok(Handled(g, c1));
    GetAfterAdd(st.cache, env.vec, subq, g, chunks, chunks + [""]);
    var second := Invoke(env, RetrieveAndRespond, c1, subq, action);
    assert second == Ok(Handled(Tagged(g), c1));
  }
}

=== FILE: json.dfy ===
/** The JSON values that `json.loads` can hand back to the router, and the two
    Python behaviours the dispatcher relies on: hashing (dictionary lookup) and `str()`. */
module Json {

  datatype Json =
    | JNull
    | JBool(b: bool)
    | JNum(repr: string)              // `repr` is how Python prints the parsed number
    | JStr(s: string)
    | JArr(items: seq<Json>)
    | JObj(fields: map<string, Json>)

  /** Lists and dicts are unhashable: using one as a dictionary key raises TypeError. */
  predicate Hashable(j: Json) {
    !j.JArr? && !j.JObj?
  }

  /** The TypeError message Python gives for an unhashable key. */
  function UnhashableMessage(j: Json): string
    requires !Hashable(j)
  {
    if j.JArr? then "unhashable type: 'list'" else "unhashable type: 'dict'"
  }

  /** `str(j)` for the hashable JSON values. */
  function PyStr(j: Json): string
    requires Hashable(j)
  {
    match j
    case JNull => "None"
    case JBool(b) => if b then "True" else "False"
    case JNum(repr) => repr
    case JStr(s) => s
  }

  /** `d.get(key, default)`. */
  function GetOr(d: map<string, Json>, key: string, default: Json): Json {
    if key in d then d[key] else default
  }
}

=== FILE: pipeline.dfy ===
/** The question-answering pipeline: a fixed action -> handler table, three
    handlers that consult the semantic cache, and `run`, which folds over the
    sub-questions building a result map and one log record per sub-question.
    A raised exception is `Err`/`Raised`; the state carried by `Raised` holds the
    log records already appended and the cache changes already saved. */
module Pipeline {
  import opened Wrappers
  import opened Json
  import opened SemanticCache
  import opened Retriever
  import opened Router

  const HitMarker := "[Semantic Cache HIT]"
  const NoContentMessage := "No relevant content found."
  const WebDisabledTag := "[Web Search Disabled]"
  const WebDisabledMessage := WebDisabledTag + " The system was not allowed to perform an internet search."
  const NoResponseMessage := "No response received."
  const WebFailurePrefix := "Internet query failed: "
  const UnsupportedPrefix := "Unsupported action: "
  const UnsupportedError := "Unsupported action"
  const PreviewLength: nat := 200

  datatype Handler = RetrieveAndRespond | GetInternetContent | SkipInternetSearch

  /** Everything outside the core: vectors and search, the vector store, the answer
      generator, the web-search API (a decoded `response_text`, absent or present,
      or a failure) and the router's model. */
  datatype Collaborators = Collaborators(
    vec: VectorOps,
    store: Store,
    generate: (string, Context) -> Result<string>,
    webSearch: string -> Result<Option<string>>,
    router: RouterModel)

  datatype Handled = Handled(answer: string, cache: Cache)

  /** How many times `run` calls the selected handler per sub-question. */
  datatype Invocation = InvokeTwice | InvokeOnce

  datatype LogOutcome =
    | HandledLog(cacheHit: bool, answerPreview: string)
    | UnsupportedLog(error: string)

  datatype LogEntry = LogEntry(
    userQuery: string,
    subquery: string,
    routeAction: Json,
    routeReason: Json,
    outcome: LogOutcome)

  datatype RunState = RunState(cache: Cache, results: map<string, string>, log: seq<LogEntry>)

  datatype Outcome = Done(state: RunState) | Raised(error: string, state: RunState)

  /** The route table built by the constructor. */
  function Routes(allowWebSearch: bool): (routes: map<string, Handler>)
    ensures routes.Keys == {OpenAiQuery, TenKDocumentQuery, InternetQuery}
    ensures routes[OpenAiQuery] == routes[TenKDocumentQuery] == RetrieveAndRespond
    ensures forall a :: a in routes && routes[a] == RetrieveAndRespond ==> a in Collections
    ensures routes[InternetQuery] == GetInternetContent <==> allowWebSearch
    ensures routes[InternetQuery] == SkipInternetSearch <==> !allowWebSearch
  {
    map[OpenAiQuery := RetrieveAndRespond,
        TenKDocumentQuery := RetrieveAndRespond,
        InternetQuery := if allowWebSearch then GetInternetContent else SkipInternetSearch]
  }

  /** `routes.get(action)`: a list or dict action raises TypeError; any other value
      that is not one of the table's strings has no handler. */
  function LookupHandler(routes: map<string, Handler>, action: Json): (r: Result<Option<Handler>>)
    ensures !Hashable(action) <==> r.Err?
    ensures r.Err? ==> r.error == UnhashableMessage(action)
    ensures r.Ok? ==> (r.value.Some? <==> action.JStr? && action.s in routes)
    ensures r.Ok? && r.value.Some? ==> r.value.value == routes[action.s]
  {
    if !Hashable(action) then Err(UnhashableMessage(action))
    else if action.JStr? && action.s in routes then Ok(Some(routes[action.s]))
    else Ok(None)
  }

  function Tagged(answer: string): (tagged: string) {
    HitMarker + "\n" + answer
  }

  /** Python truthiness of the cache's answer: a miss and an empty string both fail. */
  predicate Truthy(cached: Option<string>) {
    cached.Some? && cached.value != ""
  }

  /** The chunks the retrieval handler fetches (embedding not normalised). */
  function Chunks(env: Collaborators, query: string, action: string): (chunks: Result<seq<string>>) {
    Retrieve(env.store, env.vec.embed(query), action, DefaultLimit)
  }

  /** `c'` is `c`, or `c` with exactly one entry appended for `query`. */
  predicate UnchangedOrAppended(c: Cache, c': Cache, ops: VectorOps, query: string, answer: string, ctx: Context)
    requires Parallel(c) && Parallel(c')
  {
    c' == c || Entries(c') == Entries(c) + [Entry(query, answer, ctx, Embed(ops, query))]
  }

  /** `retrieve_and_respond`. Retrieval and generation failures propagate. */
  function RetrieveAndRespondHandler(env: Collaborators, c: Cache, query: string, action: string): (r: Result<Handled>)
    requires WellFormed(env.vec) && Valid(c, env.vec.dim)
    ensures r.Ok? ==> Valid(r.value.cache, env.vec.dim)
    ensures r.Ok? ==> r.value.cache.threshold == c.threshold
    ensures Chunks(env, query, action).Err? ==> r == Err(Chunks(env, query, action).error)
    ensures Chunks(env, query, action) == Ok([]) ==> r == Ok(Handled(NoContentMessage, c))
    ensures r.Ok? && Chunks(env, query, action).Ok? ==>
      UnchangedOrAppended(c, r.value.cache, env.vec, query, r.value.answer, Chunks(env, query, action).value)
    ensures Chunks(env, query, action).Ok? && |Chunks(env, query, action).value| > 0 ==>
      var cached := Get(c, env.vec, query, Chunks(env, query, action).value);
      && (Truthy(cached) ==> r == Ok(Handled(Tagged(cached.value), c)))
      && (!Truthy(cached) && r.Ok? ==>
            && r.value.cache != c
            && env.generate(query, Chunks(env, query, action).value).Ok?
            && r.value.answer == env.generate(query, Chunks(env, query, action).value).value)
      && (!Truthy(cached) && env.generate(query, Chunks(env, query, action).value).Err? ==>
            r == Err(env.generate(query, Chunks(env, query, action).value).error))
      && (!Truthy(cached) && env.generate(query, Chunks(env, query, action).value).Ok? ==> r.Ok?)
  {
    match Chunks(env, query, action)
    case Err(e) => Err(e)
    case Ok(context) =>
      if |context| == 0 then Ok(Handled(NoContentMessage, c))
      else
        var cached := Get(c, env.vec, query, context);
        if Truthy(cached) then Ok(Handled(Tagged(cached.value), c))
        else
          match env.generate(query, context)
          case Err(e) => Err(e)
          case Ok(answer) =>
            var c' := Add(c, env.vec, query, answer, context);
            assert |c'.questions| == |c.questions| + 1;
            Ok(Handled(answer, c'))
  }

  /** `get_internet_content`: looks up and stores under the empty context, and turns
      every web failure into an answer string, so it never raises. */
  function InternetHandler(env: Collaborators, c: Cache, query: string): (r: Result<Handled>)
    requires WellFormed(env.vec) && Valid(c, env.vec.dim)
    ensures r.Ok? && Valid(r.value.cache, env.vec.dim)
    ensures r.value.cache.threshold == c.threshold
    ensures Truthy(Get(c, env.vec, query, [])) ==> r.value == Handled(Tagged(Get(c, env.vec, query, []).value), c)
    ensures !Truthy(Get(c, env.vec, query, [])) && env.webSearch(query).Err? ==>
      r.value == Handled(WebFailurePrefix + env.webSearch(query).error, c)
    ensures !Truthy(Get(c, env.vec, query, [])) && env.webSearch(query).Ok? ==>
      && r.value.answer == env.webSearch(query).value.GetOr(NoResponseMessage)
      && Entries(r.value.cache) == Entries(c) + [Entry(query, r.value.answer, [], Embed(env.vec, query))]
  {
    var cached := Get(c, env.vec, query, []);
    if Truthy(cached) then Ok(Handled(Tagged(cached.value), c))
    else
      match env.webSearch(query)
      case Err(e) => Ok(Handled(WebFailurePrefix + e, c))
      case Ok(text) =>
        var answer := text.GetOr(NoResponseMessage);
        Ok(Handled(answer, Add(c, env.vec, query, answer, [])))
  }

  /** Calls the handler the table selected, with the sub-question and the action. */
  function Invoke(env: Collaborators, h: Handler, c: Cache, query: string, action: string): (r: Result<Handled>)
    requires WellFormed(env.vec) && Valid(c, env.vec.dim)
    ensures r.Ok? ==> Valid(r.value.cache, env.vec.dim)
    ensures h != RetrieveAndRespond ==> r.Ok?
    ensures h == SkipInternetSearch ==> r == Ok(Handled(WebDisabledMessage, c))
  {
    match h
    case RetrieveAndRespond => RetrieveAndRespondHandler(env, c, query, action)
    case GetInternetContent => InternetHandler(env, c, query)
    case SkipInternetSearch => Ok(Handled(WebDisabledMessage, c))
  }

  /** `st'` is `st` with one more log record for `subq` (from `userQuery`) and a
      result stored under `subq`; other results are untouched. */
  predicate Recorded(st: RunState, st': RunState, userQuery: string, subq: string) {
    && |st'.log| == |st.log| + 1
    && st'.log[..|st.log|] == st.log
    && st'.log[|st.log|].subquery == subq
    && st'.log[|st.log|].userQuery == userQuery
    && st'.results.Keys == st.results.Keys + {subq}
    && forall k :: k in st.results && k != subq ==> st'.results[k] == st.results[k]
  }

  /** `results[subq] = answer`, then `logger.log(entry)`. */
  function Record(st: RunState, cache: Cache, subq: string, answer: string, entry: LogEntry): (st': RunState)
    ensures subq in st'.results && st'.results[subq] == answer
    ensures |st'.log| == |st.log| + 1 && st'.log[|st.log|] == entry && st'.cache == cache
    ensures entry.subquery == subq ==> Recorded(st, st', entry.userQuery, subq)
  {
    RunState(cache, st.results[subq := answer], st.log + [entry])
  }

  /** The handled branch of the loop body: invoke (once or twice), log the first
      answer, store the last one. */
  function HandleSubquery(env: Collaborators, h: Handler, mode: Invocation, userQuery: string,
                          st: RunState, subq: string, action: string, reason: Json): (o: Outcome)
    requires WellFormed(env.vec) && Valid(st.cache, env.vec.dim)
    ensures Valid(o.state.cache, env.vec.dim)
    ensures o.Done? ==> Recorded(st, o.state, userQuery, subq)
    ensures o.Raised? ==> o.state.log == st.log && o.state.results == st.results
    ensures var first := Invoke(env, h, st.cache, subq, action);
            // an exception from the first call is re-raised with nothing recorded
            && (first.Err? ==> o == Raised(first.error, st))
            // the record is written from the first call's answer
            && (o.Done? ==>
                  && first.Ok?
                  && o.state.log[|st.log|] == LogEntry(userQuery, subq, JStr(action), reason,
                       HandledLog(StartsWith(first.value.answer, HitMarker), Take(first.value.answer, PreviewLength))))
            // called once, a successful call completes the step with its answer and cache
            && (mode == InvokeOnce && first.Ok? ==>
                  && o.Done?
                  && o.state.results[subq] == first.value.answer
                  && o.state.cache == first.value.cache)
            // called twice, the second call decides: its exception is re-raised (keeping the
            // first call's cache), otherwise its answer and cache complete the step
            && (mode == InvokeTwice && first.Ok? ==>
                  var second := Invoke(env, h, first.value.cache, subq, action);
                  && (second.Err? ==> o == Raised(second.error, st.(cache := first.value.cache)))
                  && (second.Ok? ==>
                        && o.Done?
                        && o.state.results[subq] == second.value.answer
                        && o.state.cache == second.value.cache))
  {
    match Invoke(env, h, st.cache, subq, action)
    case Err(e) => Raised(e, st)
    case Ok(first) =>
      var entry := LogEntry(userQuery, subq, JStr(action), reason,
                            HandledLog(StartsWith(first.answer, HitMarker), Take(first.answer, PreviewLength)));
      if mode == InvokeOnce then
        Done(Record(st, first.cache, subq, first.answer, entry))
      else
        match Invoke(env, h, first.cache, subq, action)
        case Err(e) => Raised(e, st.(cache := first.cache))
        case Ok(second) => Done(Record(st, second.cache, subq, second.answer, entry))
  }

  /** The route decision for `subq`: its action (None when absent) and reason.
      A router failure routes to the internet handler with the failure as reason. */
  function RouteOf(env: Collaborators, subq: string): (r: (Json, Json))
    ensures !RouteSucceeded(env.router, subq) ==>
              && r.0 == JStr(InternetQuery) && r.1.JStr? && StartsWith(r.1.s, "Router error: ")
              && r.1 == RouteQuery(env.router, subq)["reason"]
    ensures RouteSucceeded(env.router, subq) ==>
              var parsed := env.router.parseObject(GreedyBraceMatch(env.router.classify(subq).value).value).value;
              r.0 == (if "action" in parsed then parsed["action"] else JNull) &&
              r.1 == (if "reason" in parsed then parsed["reason"] else JStr(""))
  {
    var route := RouteQuery(env.router, subq);
    (GetOr(route, "action", JNull), GetOr(route, "reason", JStr("")))
  }

  /** One iteration of `run`'s loop. */
  function Step(env: Collaborators, allowWebSearch: bool, mode: Invocation, userQuery: string,
                st: RunState, subq: string): (o: Outcome)
    requires WellFormed(env.vec) && Valid(st.cache, env.vec.dim)
    ensures Valid(o.state.cache, env.vec.dim)
    ensures o.Done? ==> Recorded(st, o.state, userQuery, subq)
    ensures o.Raised? ==> o.state.log == st.log && o.state.results == st.results
    // an unhashable action raises before anything is recorded
    ensures var route := RouteOf(env, subq);
            LookupHandler(Routes(allowWebSearch), route.0).Err? ==>
              o == Raised(UnhashableMessage(route.0), st)
    // an action without a handler is answered and logged as unsupported, cache untouched
    ensures var route := RouteOf(env, subq);
            LookupHandler(Routes(allowWebSearch), route.0) == Ok(None) ==>
              o.Done? && o.state.cache == st.cache &&
              o.state.results[subq] == UnsupportedPrefix + PyStr(route.0) &&
              o.state.log[|st.log|] == LogEntry(userQuery, subq, route.0, route.1, UnsupportedLog(UnsupportedError))
    // a dispatched action is the handled branch, with the route's action and reason
    ensures var route := RouteOf(env, subq);
            LookupHandler(Routes(allowWebSearch), route.0).Ok? && LookupHandler(Routes(allowWebSearch), route.0).value.Some? ==>
              route.0.JStr? &&
              o == HandleSubquery(env, LookupHandler(Routes(allowWebSearch), route.0).value.value,
                                  mode, userQuery, st, subq, route.0.s, route.1)
  {
    var (action, reason) := RouteOf(env, subq);
    match LookupHandler(Routes(allowWebSearch), action)
    case Err(e) => Raised(e, st)
    case Ok(None) =>
      var entry := LogEntry(userQuery, subq, action, reason, UnsupportedLog(UnsupportedError));
      Done(Record(st, st.cache, subq, UnsupportedPrefix + PyStr(action), entry))
    case Ok(Some(h)) =>
      HandleSubquery(env, h, mode, userQuery, st, subq, action.s, reason)
  }

  /** The log grew from `before` to `after` by one record per sub-question, in order. */
  ghost predicate LoggedInOrder(before: seq<LogEntry>, after: seq<LogEntry>, userQuery: string, subqs: seq<string>) {
    && |after| == |before| + |subqs|
    && after[..|before|] == before
    && forall k :: 0 <= k < |subqs| ==>
         after[|before| + k].subquery == subqs[k] && after[|before| + k].userQuery == userQuery
  }

  lemma LoggedInOrderStep(log0: seq<LogEntry>, log1: seq<LogEntry>, log2: seq<LogEntry>,
                          userQuery: string, s: string, rest: seq<string>)
    requires LoggedInOrder(log0, log1, userQuery, [s])
    requires LoggedInOrder(log1, log2, userQuery, rest)
    ensures LoggedInOrder(log0, log2, userQuery, [s] + rest)
  {
    assert log2[..|log0|] == log1[..|log0|] == log0;
    forall k | 0 <= k < |[s] + rest|
      ensures log2[|log0| + k].subquery == ([s] + rest)[k] && log2[|log0| + k].userQuery == userQuery
    {
      if k == 0 {
        assert ([s] + rest)[0] == s;
        assert log2[|log0|] == log1[|log0|];
      } else {
        assert ([s] + rest)[k] == rest[k - 1];
        assert log2[|log0| + k] == log2[|log1| + (k - 1)];
      }
    }
  }

  /** `LoggedInOrderStep` for a loop whose remainder may have raised. */
  lemma LoggedInOrderCons(log0: seq<LogEntry>, log1: seq<LogEntry>, o: Outcome, userQuery: string, subqs: seq<string>)
    requires |subqs| > 0 && LoggedInOrder(log0, log1, userQuery, [subqs[0]])
    requires o.Done? ==> LoggedInOrder(log1, o.state.log, userQuery, subqs[1..])
    ensures o.Done? ==> LoggedInOrder(log0, o.state.log, userQuery, subqs)
  {
    if o.Done? {
      assert subqs == [subqs[0]] + subqs[1..];
      LoggedInOrderStep(log0, log1, o.state.log, userQuery, subqs[0], subqs[1..]);
    }
  }

  lemma LoggedPrefixStep(log0: seq<LogEntry>, log1: seq<LogEntry>, log2: seq<LogEntry>,
                         userQuery: string, subqs: seq<string>)
    requires |subqs| > 0
    requires LoggedInOrder(log0, log1, userQuery, [subqs[0]])
    requires exists n :: 0 <= n < |subqs[1..]| && LoggedInOrder(log1, log2, userQuery, subqs[1..][..n])
    ensures exists n :: 0 <= n < |subqs| && LoggedInOrder(log0, log2, userQuery, subqs[..n])
  {
    var n :| 0 <= n < |subqs[1..]| && LoggedInOrder(log1, log2, userQuery, subqs[1..][..n]);
    assert [subqs[0]] + subqs[1..][..n] == subqs[..n + 1];
    LoggedInOrderStep(log0, log1, log2, userQuery, subqs[0], subqs[1..][..n]);
  }

  /** `LoggedPrefixStep` for a loop whose remainder may have completed. */
  lemma LoggedPrefixCons(log0: seq<LogEntry>, log1: seq<LogEntry>, o: Outcome, userQuery: string, subqs: seq<string>)
    requires |subqs| > 0 && LoggedInOrder(log0, log1, userQuery, [subqs[0]])
    requires o.Raised? ==> exists n :: 0 <= n < |subqs[1..]| && LoggedInOrder(log1, o.state.log, userQuery, subqs[1..][..n])
    ensures o.Raised? ==> exists n :: 0 <= n < |subqs| && LoggedInOrder(log0, o.state.log, userQuery, subqs[..n])
  {
    if o.Raised? {
      LoggedPrefixStep(log0, log1, o.state.log, userQuery, subqs);
    }
  }

  /** The loop of `run` over the remaining sub-questions. */
  function Loop(env: Collaborators, allowWebSearch: bool, mode: Invocation, userQuery: string,
                st: RunState, subqs: seq<string>): (o: Outcome)
    requires WellFormed(env.vec) && Valid(st.cache, env.vec.dim)
    ensures Valid(o.state.cache, env.vec.dim)
    decreases |subqs|
  {
    if |subqs| == 0 then Done(st)
    else
      match Step(env, allowWebSearch, mode, userQuery, st, subqs[0])
      case Raised(e, st1) => Raised(e, st1)
      case Done(st1) => Loop(env, allowWebSearch, mode, userQuery, st1, subqs[1..])
  }

  /** One unfolding of the loop, naming the state after its first step. */
  lemma LoopHead(env: Collaborators, allow: bool, mode: Invocation, userQuery: string,
                 st: RunState, subqs: seq<string>) returns (first: Outcome)
    requires WellFormed(env.vec) && Valid(st.cache, env.vec.dim)
    requires |subqs| > 0
    ensures Valid(first.state.cache, env.vec.dim)
    ensures first.Done? ==>
      && Recorded(st, first.state, userQuery, subqs[0])
      && LoggedInOrder(st.log, first.state.log, userQuery, [subqs[0]])
      && Loop(env, allow, mode, userQuery, st, subqs) == Loop(env, allow, mode, userQuery, first.state, subqs[1..])
    ensures first.Raised? ==>
      && first.state.log == st.log
      && Loop(env, allow, mode, userQuery, st, subqs) == first
  {
    first := Step(env, allow, mode, userQuery, st, subqs[0]);
    if first.Done? {
      RecordedLogsOne(st, first.state, userQuery, subqs[0]);
    }
  }

  lemma RecordedLogsOne(st: RunState, st': RunState, userQuery: string, subq: string)
    requires Recorded(st, st', userQuery, subq)
    ensures LoggedInOrder(st.log, st'.log, userQuery, [subq])
  {
  }

  /** A completed loop logged one record per sub-question, in order. */
  lemma {:induction false} LoopLogsInOrder(env: Collaborators, allow: bool, mode: Invocation, userQuery: string,
                                           st: RunState, subqs: seq<string>)
    requires WellFormed(env.vec) && Valid(st.cache, env.vec.dim)
    ensures var o := Loop(env, allow, mode, userQuery, st, subqs);
      o.Done? ==> LoggedInOrder(st.log, o.state.log, userQuery, subqs)
    decreases |subqs|
  {
    if |subqs| > 0 {
      var first := LoopHead(env, allow, mode, userQuery, st, subqs);
      if first.Done? {
        LoopLogsInOrder(env, allow, mode, userQuery, first.state, subqs[1..]);
        LoggedInOrderCons(st.log, first.state.log, Loop(env, allow, mode, userQuery, first.state, subqs[1..]),
                          userQuery, subqs);
      }
    }
  }

  /** A completed loop stored a result under every sub-question, and under no
      other new key. */
  lemma {:induction false} LoopStoresEveryResult(env: Collaborators, allow: bool, mode: Invocation, userQuery: string,
                                                 st: RunState, subqs: seq<string>)
    requires WellFormed(env.vec) && Valid(st.cache, env.vec.dim)
    ensures var o := Loop(env, allow, mode, userQuery, st, subqs);
      o.Done? ==> forall s :: s in o.state.results <==> s in st.results || s in subqs
    decreases |subqs|
  {
    if |subqs| > 0 && Loop(env, allow, mode, userQuery, st, subqs).Done? {
      var first := LoopHead(env, allow, mode, userQuery, st, subqs);
      LoopStoresEveryResult(env, allow, mode, userQuery, first.state, subqs[1..]);
      assert forall s :: s in subqs <==> s == subqs[0] || s in subqs[1..];
    }
  }

  /** A completed loop left the result under every other key as it was. */
  lemma {:induction false} LoopKeepsOtherResults(env: Collaborators, allow: bool, mode: Invocation, userQuery: string,
                                                 st: RunState, subqs: seq<string>, k: string)
    requires WellFormed(env.vec) && Valid(st.cache, env.vec.dim)
    requires k in st.results && k !in subqs
    ensures var o := Loop(env, allow, mode, userQuery, st, subqs);
      o.Done? ==> k in o.state.results && o.state.results[k] == st.results[k]
    decreases |subqs|
  {
    if |subqs| > 0 && Loop(env, allow, mode, userQuery, st, subqs).Done? {
      var first := LoopHead(env, allow, mode, userQuery, st, subqs);
      assert k != subqs[0] && k !in subqs[1..];
      LoopKeepsOtherResults(env, allow, mode, userQuery, first.state, subqs[1..], k);
    }
  }

  /** A loop cut short by an exception had logged a record for each sub-question
      before the failing one, in order, and none for the failing one. */
  lemma {:induction false} LoopRaisedLogsPrefix(env: Collaborators, allow: bool, mode: Invocation, userQuery: string,
                                                st: RunState, subqs: seq<string>)
    requires WellFormed(env.vec) && Valid(st.cache, env.vec.dim)
    ensures var o := Loop(env, allow, mode, userQuery, st, subqs);
      o.Raised? ==> exists n :: 0 <= n < |subqs| && LoggedInOrder(st.log, o.state.log, userQuery, subqs[..n])
    decreases |subqs|
  {
    if |subqs| > 0 {
      var first := LoopHead(env, allow, mode, userQuery, st, subqs);
      if first.Raised? {
        assert LoggedInOrder(st.log, first.state.log, userQuery, subqs[..0]);
      } else {
        LoopRaisedLogsPrefix(env, allow, mode, userQuery, first.state, subqs[1..]);
        LoggedPrefixCons(st.log, first.state.log, Loop(env, allow, mode, userQuery, first.state, subqs[1..]),
                         userQuery, subqs);
      }
    }
  }

  /** `run`: split (failures propagate with nothing logged), then the loop from an
      empty result map and an empty log. */
  function Run(env: Collaborators, allowWebSearch: bool, mode: Invocation, cache: Cache, userQuery: string): (o: Outcome)
    requires WellFormed(env.vec) && Valid(cache, env.vec.dim)
    ensures Valid(o.state.cache, env.vec.dim)
    ensures SplitSubqueries(env.router, userQuery).Err? ==>
      o == Raised(SplitSubqueries(env.router, userQuery).error, RunState(cache, map[], []))
    ensures o.Done? ==>
      var subqs := SplitSubqueries(env.router, userQuery).value;
      && SplitSubqueries(env.router, userQuery).Ok?
      && LoggedInOrder([], o.state.log, userQuery, subqs)
      && (forall s :: s in o.state.results <==> s in subqs)
  {
    match SplitSubqueries(env.router, userQuery)
    case Err(e) => Raised(e, RunState(cache, map[], []))
    case Ok(subqs) =>
      var st := RunState(cache, map[], []);
      var o := Loop(env, allowWebSearch, mode, userQuery, st, subqs);
      if o.Done? then
        LoopLogsInOrder(env, allowWebSearch, mode, userQuery, st, subqs);
        LoopStoresEveryResult(env, allowWebSearch, mode, userQuery, st, subqs);
        o
      else o
  }
}

/** Properties of the pipeline that relate several calls. */
module PipelineProperties {
  import opened Wrappers
  import opened Json
  import opened SemanticCache
  import opened Retriever
  import opened Router
  import opened Pipeline

  /** The answer came out of the cache: the handler consulted it (for the retrieval
      handler, only after a non-empty retrieval) and the cached answer was truthy. */
  predicate ServedFromCache(env: Collaborators, h: Handler, c: Cache, query: string, action: string)
    requires WellFormed(env.vec) && Valid(c, env.vec.dim)
  {
    match h
    case RetrieveAndRespond =>
      var chunks := Chunks(env, query, action);
      chunks.Ok? && |chunks.value| > 0 && Truthy(Get(c, env.vec, query, chunks.value))
    case GetInternetContent => Truthy(Get(c, env.vec, query, []))
    case SkipInternetSearch => false
  }

  /** The collaborators' genuine content never begins with the hit marker. */
  ghost predicate NoGenuineTag(env: Collaborators) {
    && (forall q, ctx :: env.generate(q, ctx).Ok? ==> !StartsWith(env.generate(q, ctx).value, HitMarker))
    && (forall q :: env.webSearch(q).Ok? && env.webSearch(q).value.Some? ==>
          !StartsWith(env.webSearch(q).value.value, HitMarker))
  }

  lemma TaggedStartsWithMarker(answer: string)
    ensures StartsWith(Tagged(answer), HitMarker)
  {
    assert Tagged(answer)[..|HitMarker|] == HitMarker;
  }

  lemma FirstCharNotMarker(s: string)
    requires |s| > 0 && s[0] != '['
    ensures !StartsWith(s, HitMarker)
  {
  }

  /** The hit flag `run` derives from the marker is exact: an answer starts with
      the marker if and only if it was served from the cache, as long as genuine
      content never starts with the marker. */
  lemma HitMarkerIffServedFromCache(env: Collaborators, h: Handler, c: Cache, query: string, action: string)
    requires WellFormed(env.vec) && Valid(c, env.vec.dim) && NoGenuineTag(env)
    requires Invoke(env, h, c, query, action).Ok?
    ensures StartsWith(Invoke(env, h, c, query, action).value.answer, HitMarker)
            <==> ServedFromCache(env, h, c, query, action)
  {
    var answer := Invoke(env, h, c, query, action).value.answer;
    match h
    case RetrieveAndRespond =>
      var chunks := Chunks(env, query, action);
      if chunks.Ok? && |chunks.value| > 0 {
        var cached := Get(c, env.vec, query, chunks.value);
        if Truthy(cached) {
          TaggedStartsWithMarker(cached.value);
        }
      } else {
        assert answer == NoContentMessage;
        FirstCharNotMarker(NoContentMessage);
      }
    case GetInternetContent =>
      var cached := Get(c, env.vec, query, []);
      if Truthy(cached) {
        TaggedStartsWithMarker(cached.value);
      } else if env.webSearch(query).Err? {
        assert answer == WebFailurePrefix + env.webSearch(query).error;
        FirstCharNotMarker(answer);
      } else if env.webSearch(query).value.None? {
        FirstCharNotMarker(NoResponseMessage);
      }
    case SkipInternetSearch =>
      assert answer == WebDisabledMessage;
      assert WebDisabledMessage[1] == WebDisabledTag[1] == 'W';
      assert WebDisabledMessage[..|HitMarker|][1] == WebDisabledMessage[1];
  }

  /** An empty cached answer counts as a miss: the generator runs and a second
      entry for the same question and context is appended. */
  lemma EmptyCachedAnswerIsMiss(env: Collaborators, c: Cache, query: string, action: string)
    requires WellFormed(env.vec) && Valid(c, env.vec.dim)
    requires Chunks(env, query, action).Ok? && |Chunks(env, query, action).value| > 0
    requires Get(c, env.vec, query, Chunks(env, query, action).value) == Some("")
    requires env.generate(query, Chunks(env, query, action).value).Ok?
    ensures var r := RetrieveAndRespondHandler(env, c, query, action);
      && r.Ok?
      && r.value.answer == env.generate(query, Chunks(env, query, action).value).value
      && |r.value.cache.questions| == |c.questions| + 1
  {
    var r := RetrieveAndRespondHandler(env, c, query, action);
    assert |Entries(r.value.cache)| == |Entries(c)| + 1;
  }

  /** The retrieval handler is only ever selected for an action that has a
      collection, so the retriever's invalid-action error cannot arise from `run`. */
  lemma RetrievalOnlyForKnownCollections(allow: bool, action: Json)
    requires LookupHandler(Routes(allow), action) == Ok(Some(RetrieveAndRespond))
    ensures action.JStr? && action.s in Collections
  {
    assert action.s in Routes(allow) && Routes(allow)[action.s] == RetrieveAndRespond;
  }

  /** The router's fallback decision always has a handler: web search when it is
      allowed, the fixed refusal otherwise. */
  lemma FallbackRouteIsDispatched(env: Collaborators, allow: bool, subq: string)
    requires !RouteSucceeded(env.router, subq)
    ensures LookupHandler(Routes(allow), RouteOf(env, subq).0)
            == Ok(Some(if allow then GetInternetContent else SkipInternetSearch))
  {
    var route := RouteQuery(env.router, subq);
    assert IsFallback(route);
    assert "action" in route;
  }

  /** An action with no handler (including a missing one, read as None) produces
      "Unsupported action: <action>", an error-marked log record, and no handler call. */
  lemma UnsupportedAction(env: Collaborators, allow: bool, mode: Invocation, userQuery: string,
                          st: RunState, subq: string)
    requires WellFormed(env.vec) && Valid(st.cache, env.vec.dim)
    requires Hashable(RouteOf(env, subq).0)
    requires !(RouteOf(env, subq).0.JStr? && RouteOf(env, subq).0.s in Routes(allow))
    ensures var o := Step(env, allow, mode, userQuery, st, subq);
      && o.Done?
      && o.state.results[subq] == UnsupportedPrefix + PyStr(RouteOf(env, subq).0)
      && o.state.log[|st.log|].outcome == UnsupportedLog(UnsupportedError)
      && o.state.cache == st.cache
    ensures "action" !in RouteQuery(env.router, subq) ==>
      Step(env, allow, mode, userQuery, st, subq).state.results[subq] == "Unsupported action: None"
  {
  }

  /** A decoded list or dict action makes the table lookup raise TypeError, which
      escapes `run`: the router's fail-open policy does not cover it. */
  lemma UnhashableActionRaises(env: Collaborators, allow: bool, mode: Invocation, userQuery: string,
                               st: RunState, subq: string)
    requires WellFormed(env.vec) && Valid(st.cache, env.vec.dim)
    requires !Hashable(RouteOf(env, subq).0)
    ensures Step(env, allow, mode, userQuery, st, subq)
            == Raised(UnhashableMessage(RouteOf(env, subq).0), st)
  {
  }

  /** The dispatcher does not isolate handlers, but only the retrieval handler can
      raise: a sub-question sent to the web search or to the refusal always completes,
      and a failed web search is stored as its failure message while the batch goes on. */
  lemma NonRetrievalStepCompletes(env: Collaborators, allow: bool, mode: Invocation, userQuery: string,
                                  st: RunState, subq: string, h: Handler)
    requires WellFormed(env.vec) && Valid(st.cache, env.vec.dim)
    requires LookupHandler(Routes(allow), RouteOf(env, subq).0) == Ok(Some(h))
    requires h != RetrieveAndRespond
    ensures var o := Step(env, allow, mode, userQuery, st, subq);
            && o.Done?
            && (h == GetInternetContent && !Truthy(Get(st.cache, env.vec, subq, [])) && env.webSearch(subq).Err? ==>
                  && o.state.results[subq] == WebFailurePrefix + env.webSearch(subq).error
                  && o.state.cache == st.cache)
  {
  }

  /** With a single invocation the log record describes the stored answer: its hit
      flag is the marker test on that answer, which is exact when genuine content
      never carries the marker, and its preview is that answer's first 200 characters. */
  lemma SingleInvocationLogMatchesResult(env: Collaborators, allow: bool, userQuery: string,
                                         st: RunState, subq: string, h: Handler)
    requires WellFormed(env.vec) && Valid(st.cache, env.vec.dim)
    requires LookupHandler(Routes(allow), RouteOf(env, subq).0) == Ok(Some(h))
    requires Step(env, allow, InvokeOnce, userQuery, st, subq).Done?
    ensures var o := Step(env, allow, InvokeOnce, userQuery, st, subq);
      var answer := o.state.results[subq];
      && o.state.log[|st.log|].outcome == HandledLog(StartsWith(answer, HitMarker), Take(answer, PreviewLength))
      && (NoGenuineTag(env) ==>
            (o.state.log[|st.log|].outcome.cacheHit
             <==> ServedFromCache(env, h, st.cache, subq, RouteOf(env, subq).0.s)))
  {
    var action := RouteOf(env, subq).0;
    var r := Invoke(env, h, st.cache, subq, action.s);
    if NoGenuineTag(env) {
      HitMarkerIffServedFromCache(env, h, st.cache, subq, action.s);
    }
  }

  lemma {:induction false} LoopConcat(env: Collaborators, allow: bool, mode: Invocation, userQuery: string,
                                      st: RunState, a: seq<string>, b: seq<string>)
    requires WellFormed(env.vec) && Valid(st.cache, env.vec.dim)
    ensures var o := Loop(env, allow, mode, userQuery, st, a);
      Loop(env, allow, mode, userQuery, st, a + b)
        == if o.Done? then Loop(env, allow, mode, userQuery, o.state, b) else o
    decreases |a|
  {
    if |a| == 0 {
      assert a + b == b;
    } else {
      assert (a + b)[0] == a[0] && (a + b)[1..] == a[1..] + b;
      var o1 := Step(env, allow, mode, userQuery, st, a[0]);
      if o1.Done? {
        LoopConcat(env, allow, mode, userQuery, o1.state, a[1..], b);
      }
    }
  }

  /** Results are keyed by sub-question text: for a repeated sub-question the
      result stored at its last occurrence is the one `run` returns. */
  lemma LastOccurrenceWins(env: Collaborators, allow: bool, mode: Invocation, userQuery: string,
                           st: RunState, xs: seq<string>, s: string, ys: seq<string>)
    requires WellFormed(env.vec) && Valid(st.cache, env.vec.dim)
    requires s !in ys
    ensures var final := Loop(env, allow, mode, userQuery, st, xs + [s] + ys);
      var upTo := Loop(env, allow, mode, userQuery, st, xs + [s]);
      final.Done? ==>
        && upTo.Done?
        && s in upTo.state.results && s in final.state.results
        && final.state.results[s] == upTo.state.results[s]
  {
    if Loop(env, allow, mode, userQuery, st, xs + [s] + ys).Done? {
      LoopConcat(env, allow, mode, userQuery, st, xs + [s], ys);
      var o := Loop(env, allow, mode, userQuery, st, xs + [s]);
      LoopStoresEveryResult(env, allow, mode, userQuery, st, xs + [s]);
      assert s in xs + [s];
      LoopKeepsOtherResults(env, allow, mode, userQuery, o.state, ys, s);
    }
  }
}

=== FILE: retriever.dfy ===
/** The vector-store retriever's own guard: only the two document actions have a
    collection, and anything else is refused before the store is queried. */
module Retriever {
  import opened Wrappers
  import opened Vectors

  const OpenAiQuery := "OPENAI_QUERY"
  const TenKDocumentQuery := "10K_DOCUMENT_QUERY"

  /** How many chunks the pipeline asks for. */
  const DefaultLimit: nat := 3

  /** Routing action -> vector-store collection. */
  const Collections: map<string, string> := map[OpenAiQuery := "opnai_data", TenKDocumentQuery := "10k_data"]

  /** The vector store itself: (query vector, collection, limit) -> content chunks, or a failure. */
  type Store = (Vec, string, nat) -> Result<seq<string>>

  /** `retrieve`: an action without a collection raises ValueError; a store failure
      is re-raised as RuntimeError; otherwise the store's chunks come back as they are. */
  function Retrieve(store: Store, vector: Vec, action: string, limit: nat): (r: Result<seq<string>>)
    ensures action !in Collections ==> r == Err("Invalid action '" + action + "' for retrieval.")
    ensures action in Collections && store(vector, Collections[action], limit).Ok? ==>
              r == store(vector, Collections[action], limit)
    ensures action in Collections && store(vector, Collections[action], limit).Err? ==>
              r == Err("Qdrant retrieval failed: " + store(vector, Collections[action], limit).error)
    ensures r.Err? && action in Collections ==> StartsWith(r.error, "Qdrant retrieval failed: ")
  {
    if action !in Collections then Err("Invalid action '" + action + "' for retrieval.")
    else
      match store(vector, Collections[action], limit)
      case Ok(chunks) => Ok(chunks)
      case Err(e) => Err("Qdrant retrieval failed: " + e)
  }
}

=== FILE: router.dfy ===
/** The query router: classification by a language model with a fail-open
    fallback, and sub-question splitting without one. The model call and the
    JSON decoder are collaborators. */
module Router {
  import opened Wrappers
  import opened Json

  const InternetQuery := "INTERNET_QUERY"

  /** The AttributeError raised when the regular expression found nothing. */
  const NoMatchMessage := "'NoneType' object has no attribute 'group'"

  datatype RouterModel = RouterModel(
    classify: string -> Result<string>,                  // chat completion for the routing prompt
    parseObject: string -> Result<map<string, Json>>,    // json.loads on a text that starts with '{'
    split: string -> Result<string>,                     // chat completion for the splitting prompt
    parseSubQuestions: string -> Result<seq<string>>)    // json.loads(...)["subQuestions"], iterated

  function FirstIndexOf(s: string, ch: char): (r: Option<nat>)
    ensures r.Some? ==> r.value < |s| && s[r.value] == ch && forall k :: 0 <= k < r.value ==> s[k] != ch
    ensures r.None? ==> forall k :: 0 <= k < |s| ==> s[k] != ch
  {
    if |s| == 0 then None
    else if s[0] == ch then Some(0)
    else
      match FirstIndexOf(s[1..], ch)
      case None => None
      case Some(i) => Some(i + 1)
  }

  function LastIndexOf(s: string, ch: char): (r: Option<nat>)
    ensures r.Some? ==> r.value < |s| && s[r.value] == ch && forall k :: r.value < k < |s| ==> s[k] != ch
    ensures r.None? ==> forall k :: 0 <= k < |s| ==> s[k] != ch
  {
    if |s| == 0 then None
    else if s[|s| - 1] == ch then Some(|s| - 1)
    else LastIndexOf(s[..|s| - 1], ch)
  }

  /** `i`..`j` is the span the greedy pattern selects: the first '{' and the last '}'. */
  ghost predicate GreedySpan(text: string, i: nat, j: nat) {
    && i < j < |text| && text[i] == '{' && text[j] == '}'
    && (forall k :: 0 <= k < i ==> text[k] != '{')
    && (forall k :: j < k < |text| ==> text[k] != '}')
  }

  /** `re.search(r"\{.*\}", text, re.DOTALL)`: from the first '{' to the last '}'
      after it, across newlines; no match unless some '{' precedes some '}'. */
  function GreedyBraceMatch(text: string): (r: Option<string>)
    ensures r.Some? <==> exists i, j :: 0 <= i < j < |text| && text[i] == '{' && text[j] == '}'
    ensures r.Some? ==> exists i: nat, j: nat :: GreedySpan(text, i, j) && r.value == text[i..j + 1]
  {
    match (FirstIndexOf(text, '{'), LastIndexOf(text, '}'))
    case (Some(i), Some(j)) =>
      if i < j then
        assert GreedySpan(text, i, j);
        Some(text[i..j + 1])
      else None
    case _ => None
  }

  /** The degraded decision returned on any failure. */
  function Fallback(err: string): (decision: map<string, Json>) {
    map["action" := JStr(InternetQuery), "reason" := JStr("Router error: " + err), "answer" := JStr("")]
  }

  predicate IsFallback(d: map<string, Json>) {
    && d.Keys == {"action", "reason", "answer"}
    && d["action"] == JStr(InternetQuery)
    && d["answer"] == JStr("")
    && d["reason"].JStr? && StartsWith(d["reason"].s, "Router error: ")
  }

  /** Whether the model answered, a braced span was found, and it decoded. */
  predicate RouteSucceeded(m: RouterModel, query: string) {
    && m.classify(query).Ok?
    && GreedyBraceMatch(m.classify(query).value).Some?
    && m.parseObject(GreedyBraceMatch(m.classify(query).value).value).Ok?
  }

  /** `route_query`: never raises. On success the decoded object is returned as it
      is, without checking its action; on any failure the fallback is returned. */
  function RouteQuery(m: RouterModel, query: string): (r: map<string, Json>)
    ensures RouteSucceeded(m, query) ==>
      r == m.parseObject(GreedyBraceMatch(m.classify(query).value).value).value
    ensures !RouteSucceeded(m, query) ==> IsFallback(r)
    // the fallback's reason carries the failure that caused it
    ensures m.classify(query).Err? ==> r == Fallback(m.classify(query).error)
    ensures m.classify(query).Ok? && GreedyBraceMatch(m.classify(query).value).None? ==>
              r == Fallback(NoMatchMessage)
    ensures m.classify(query).Ok? && GreedyBraceMatch(m.classify(query).value).Some? &&
            m.parseObject(GreedyBraceMatch(m.classify(query).value).value).Err? ==>
              r == Fallback(m.parseObject(GreedyBraceMatch(m.classify(query).value).value).error)
  {
    match m.classify(query)
    case Err(e) => Fallback(e)
    case Ok(text) =>
      match GreedyBraceMatch(text)
      case None => Fallback(NoMatchMessage)
      case Some(payload) =>
        match m.parseObject(payload)
        case Err(e) => Fallback(e)
        case Ok(obj) => obj
  }

  /** `split_subqueries`: no handler, so a model or decoding failure reaches the caller. */
  function SplitSubqueries(m: RouterModel, query: string): (r: Result<seq<string>>)
    ensures m.split(query).Err? ==> r == Err(m.split(query).error)
    ensures m.split(query).Ok? ==> r == m.parseSubQuestions(m.split(query).value)
  {
    match m.split(query)
    case Err(e) => Err(e)
    case Ok(text) => m.parseSubQuestions(text)
  }

  /** The greedy pattern spans two separate objects rather than taking the first:
      with no '{' before the first object and no '}' after the last one, the match
      runs from the first object's opening brace to the last object's closing brace,
      whatever lies between. */
  lemma GreedyMatchSpansBlocks(pre: string, first: string, mid: string, last: string, post: string)
    requires forall k :: 0 <= k < |pre| ==> pre[k] != '{'
    requires forall k :: 0 <= k < |post| ==> post[k] != '}'
    requires |first| > 0 && first[0] == '{' && |last| > 0 && last[|last| - 1] == '}'
    ensures GreedyBraceMatch(pre + first + mid + last + post) == Some(first + mid + last)
  {
    var body := first + mid + last;
    assert body[0] == first[0];
    assert body[|body| - 1] == last[|last| - 1];
    assert pre + first + mid + last + post == pre + body + post;
    GreedyMatchBetween(pre, body, post);
  }

  /** The match is `body` when `body` runs from a '{' to a '}' and is framed by
      text without an earlier '{' or a later '}'. */
  lemma GreedyMatchBetween(pre: string, body: string, post: string)
    requires forall k :: 0 <= k < |pre| ==> pre[k] != '{'
    requires forall k :: 0 <= k < |post| ==> post[k] != '}'
    requires |body| >= 2 && body[0] == '{' && body[|body| - 1] == '}'
    ensures GreedyBraceMatch(pre + body + post) == Some(body)
  {
    var t := pre + body + post;
    var i := |pre|;
    var j := |pre| + |body| - 1;
    assert t[i] == body[0] && t[j] == body[|body| - 1];
    assert forall k :: 0 <= k < i ==> t[k] == pre[k];
    assert forall k :: j < k < |t| ==> t[k] == post[k - j - 1];
    assert GreedySpan(t, i, j);
    var r := GreedyBraceMatch(t);
    var i': nat, j': nat :| GreedySpan(t, i', j') && r.value == t[i'..j' + 1];
    GreedySpanUnique(t, i', j', i, j);
    assert t[i..j + 1] == body;
  }

  lemma GreedySpanUnique(text: string, i: nat, j: nat, i': nat, j': nat)
    requires GreedySpan(text, i, j) && GreedySpan(text, i', j')
    ensures i == i' && j == j'
  {
  }

  /** A successful route is not validated: an unknown action comes back as decoded. */
  lemma RouteDoesNotValidateAction()
    ensures var m := RouterModel(
              _ => Ok("{\"action\": \"WEATHER\"}"),
              _ => Ok(map["action" := JStr("WEATHER")]),
              _ => Err("unused"),
              _ => Err("unused"));
            RouteQuery(m, "q")["action"] == JStr("WEATHER")
  {
    var m := RouterModel(
      _ => Ok("{\"action\": \"WEATHER\"}"),
      _ => Ok(map["action" := JStr("WEATHER")]),
      _ => Err("unused"),
      _ => Err("unused"));
    var t := "{\"action\": \"WEATHER\"}";
    assert t[0] == '{' && t[|t| - 1] == '}';
    assert GreedyBraceMatch(t).Some?;
  }
}

=== FILE: semantic_cache.dfy ===
/** The semantic response cache: four parallel collections (questions, answers,
    contexts, embedding rows) plus a flat inner-product index over the rows.
    A lookup is a hit only when the top-1 neighbour is similar enough AND was
    produced from exactly the caller's context. */
module SemanticCache {
  import opened Wrappers
  import opened Vectors

  /** The ordered context chunks an answer was generated from. */
  type Context = seq<string>

  /** Maximum cosine distance for a hit, as configured by default. */
  const DefaultDistanceThreshold: real := 0.1

  /** A flat inner-product index of `dim`-dimensional rows. */
  datatype FlatIndex = FlatIP(dim: nat, rows: seq<Vec>)

  /** The vector collaborators: the embedding model, the square root used by the
      norm, the similarity the index scores with, and the index's top-1 search. */
  datatype VectorOps = VectorOps(
    embed: string -> Vec,
    sqrt: real -> real,
    sim: (Vec, Vec) -> real,
    top1: (Vec, seq<Vec>) -> nat,
    dim: nat)

  datatype Cache = Cache(
    threshold: real,
    questions: seq<string>,
    answers: seq<string>,
    contexts: seq<Context>,
    embeddings: Option<seq<Vec>>,
    index: Option<FlatIndex>)

  /** One logical entry: position `k` of every parallel collection. */
  datatype Entry = Entry(question: string, answer: string, context: Context, embedding: Vec)

  /** The embedder always produces vectors of one fixed dimension. */
  ghost predicate EmbedderFixedDim(ops: VectorOps) {
    forall s :: |ops.embed(s)| == ops.dim
  }

  /** `i` is a position of maximal similarity to `q` among `rows`. */
  predicate IsTop1(sim: (Vec, Vec) -> real, q: Vec, rows: seq<Vec>, i: nat) {
    i < |rows| && forall j :: 0 <= j < |rows| ==> sim(q, rows[j]) <= sim(q, rows[i])
  }

  /** The index's top-1 search returns some maximiser; which one on a tie is left open. */
  ghost predicate SearchIsTop1(ops: VectorOps) {
    forall q, rows :: |rows| > 0 ==> IsTop1(ops.sim, q, rows, ops.top1(q, rows))
  }

  ghost predicate WellFormed(ops: VectorOps) {
    EmbedderFixedDim(ops) && SearchIsTop1(ops)
  }

  /** The state invariant: the collections have equal length, the cache is empty
      exactly when there are no embeddings and no index, and the index holds
      exactly the embedding rows. */
  predicate Valid(c: Cache, dim: nat) {
    && |c.questions| == |c.answers| == |c.contexts|
    && match c.embeddings
       case None => c.index.None? && |c.questions| == 0
       case Some(e) =>
         && |e| == |c.questions| > 0
         && c.index == Some(FlatIP(dim, e))
         && forall k :: 0 <= k < |e| ==> |e[k]| == dim
  }

  function Rows(c: Cache): (rows: seq<Vec>) {
    if c.embeddings.Some? then c.embeddings.value else []
  }

  /** The four collections line up position by position. */
  predicate Parallel(c: Cache) {
    |c.questions| == |c.answers| == |c.contexts| == |Rows(c)|
  }

  lemma ValidIsParallel(c: Cache, dim: nat)
    requires Valid(c, dim)
    ensures Parallel(c)
  {
  }

  function Entries(c: Cache): (es: seq<Entry>)
    requires Parallel(c)
    ensures |es| == |c.questions|
  {
    seq(|c.questions|, k requires 0 <= k < |c.questions| =>
      Entry(c.questions[k], c.answers[k], c.contexts[k], Rows(c)[k]))
  }

  function Empty(threshold: real): (c: Cache)
    ensures forall d :: Valid(c, d)
    ensures |c.questions| == 0
  {
    Cache(threshold, [], [], [], None, None)
  }

  /** `get_embedding` followed by `_normalize` (the float32 cast is not modelled). */
  function Embed(ops: VectorOps, text: string): (v: Vec) {
    Normalize(ops.embed(text), ops.sqrt)
  }

  /** Entry `i` is a top-1 neighbour of `question`. */
  predicate BestMatch(c: Cache, ops: VectorOps, question: string, i: nat) {
    IsTop1(ops.sim, Embed(ops, question), Rows(c), i)
  }

  /** Entry `i` is the only top-1 neighbour of `question`. */
  predicate UniqueBestMatch(c: Cache, ops: VectorOps, question: string, i: nat) {
    && BestMatch(c, ops, question, i)
    && forall j :: 0 <= j < |Rows(c)| && j != i ==>
         ops.sim(Embed(ops, question), Rows(c)[j]) < ops.sim(Embed(ops, question), Rows(c)[i])
  }

  /** Entry `i` passes both hit conditions: similarity at least `1 - threshold`
      (equality counts) and a stored context equal to `current`. */
  predicate HitAt(c: Cache, ops: VectorOps, question: string, current: Context, i: nat) {
    && i < |Rows(c)| && i < |c.contexts|
    && ops.sim(Embed(ops, question), Rows(c)[i]) >= 1.0 - c.threshold
    && c.contexts[i] == current
  }

  /** Top-1 lookup. An empty cache is an immediate miss; otherwise only the single
      top-1 candidate is considered, and a context mismatch is a miss even when a
      lower-ranked entry would have matched. */
  function Get(c: Cache, ops: VectorOps, question: string, current: Context): (r: Option<string>)
    requires Valid(c, ops.dim) && SearchIsTop1(ops)
    ensures c.index.None? || c.embeddings.None? || |c.questions| == 0 ==> r.None?
    ensures r.Some? ==>
      exists i: nat :: BestMatch(c, ops, question, i) && HitAt(c, ops, question, current, i)
                  && i < |c.answers| && r.value == c.answers[i]
    ensures forall i :: UniqueBestMatch(c, ops, question, i) ==>
      (r.Some? <==> HitAt(c, ops, question, current, i))
  {
    if c.index.None? || c.embeddings.None? || |c.questions| == 0 then None
    else
      var q := Embed(ops, question);
      var top := ops.top1(q, c.index.value.rows);
      assert IsTop1(ops.sim, q, c.index.value.rows, top);
      var similarity := ops.sim(q, c.index.value.rows[top]);
      if similarity >= 1.0 - c.threshold && c.contexts[top] == current then
        Some(c.answers[top])
      else
        None
  }

  /** Appends one entry to every parallel collection and one row to the index,
      building the index on the first insertion. */
  function Add(c: Cache, ops: VectorOps, question: string, answer: string, ctx: Context): (r: Cache)
    requires Valid(c, ops.dim) && EmbedderFixedDim(ops)
    ensures Valid(r, ops.dim)
    ensures Entries(r) == Entries(c) + [Entry(question, answer, ctx, Embed(ops, question))]
    ensures r.threshold == c.threshold
    ensures r.index.Some? && r.index.value.dim == |Embed(ops, question)|
  {
    var e := Embed(ops, question);
    var rows := if c.embeddings.None? then [e] else c.embeddings.value + [e];
    var r := Cache(c.threshold, c.questions + [question], c.answers + [answer], c.contexts + [ctx],
                   Some(rows), Some(FlatIP(|e|, rows)));
    assert |e| == ops.dim;
    assert Entries(r) == Entries(c) + [Entry(question, answer, ctx, e)] by {
      assert Rows(r) == Rows(c) + [e];
    }
    r
  }

  // ---------------------------------------------------------------------------
  // Invalidation

  /** The independent reference: the entries whose context differs from `ctx`, in order. */
  function FilterOut(es: seq<Entry>, ctx: Context): (kept: seq<Entry>) {
    if |es| == 0 then []
    else (if es[0].context != ctx then [es[0]] else []) + FilterOut(es[1..], ctx)
  }

  function CountContext(cs: seq<Context>, ctx: Context): (n: nat) {
    if |cs| == 0 then 0
    else (if cs[0] == ctx then 1 else 0) + CountContext(cs[1..], ctx)
  }

  /** The positions, from `base` on, whose context differs from `ctx`. */
  function KeepFrom(cs: seq<Context>, ctx: Context, base: nat): (r: seq<nat>)
    requires base <= |cs|
    ensures forall k :: 0 <= k < |r| ==> base <= r[k] < |cs| && cs[r[k]] != ctx
    ensures |r| + CountContext(cs[base..], ctx) == |cs| - base
    decreases |cs| - base
  {
    if base == |cs| then []
    else
      assert cs[base..][1..] == cs[base + 1..];
      (if cs[base] != ctx then [base] else []) + KeepFrom(cs, ctx, base + 1)
  }

  function Pick<T>(xs: seq<T>, idx: seq<nat>): (r: seq<T>)
    requires forall k :: 0 <= k < |idx| ==> idx[k] < |xs|
    ensures |r| == |idx|
  {
    seq(|idx|, k requires 0 <= k < |idx| => xs[idx[k]])
  }

  lemma {:induction false} PickKeepIsFilter(es: seq<Entry>, cs: seq<Context>, ctx: Context, base: nat)
    requires |es| == |cs| && base <= |cs|
    requires forall k :: 0 <= k < |es| ==> es[k].context == cs[k]
    ensures Pick(es, KeepFrom(cs, ctx, base)) == FilterOut(es[base..], ctx)
    decreases |cs| - base
  {
    if base < |cs| {
      PickKeepIsFilter(es, cs, ctx, base + 1);
      assert es[base..][1..] == es[base + 1..];
      var head: seq<nat> := if cs[base] != ctx then [base] else [];
      var tail := KeepFrom(cs, ctx, base + 1);
      assert KeepFrom(cs, ctx, base) == head + tail;
      assert FilterOut(es[base..], ctx) == Pick(es, head) + FilterOut(es[base + 1..], ctx);
      PickConcat(es, head, tail);
    }
  }

  lemma PickConcat<T>(xs: seq<T>, a: seq<nat>, b: seq<nat>)
    requires forall k :: 0 <= k < |a| ==> a[k] < |xs|
    requires forall k :: 0 <= k < |b| ==> b[k] < |xs|
    ensures Pick(xs, a + b) == Pick(xs, a) + Pick(xs, b)
  {
    assert forall k :: 0 <= k < |a + b| ==> (a + b)[k] < |xs|;
  }

  lemma {:induction false} FilterOutDropsContext(es: seq<Entry>, ctx: Context)
    ensures forall k :: 0 <= k < |FilterOut(es, ctx)| ==> FilterOut(es, ctx)[k].context != ctx
  {
    if |es| > 0 {
      FilterOutDropsContext(es[1..], ctx);
    }
  }

  /** Drops every entry stored under `ctx` and rebuilds the collections and the
      index from the survivors; when nothing survives there is no index. */
  function InvalidateForContext(c: Cache, ctx: Context): (r: Cache)
    requires Parallel(c)
    ensures Parallel(r)
    ensures forall d :: Valid(c, d) ==> Valid(r, d)
    ensures Entries(r) == FilterOut(Entries(c), ctx)
    ensures |r.questions| == |c.questions| - CountContext(c.contexts, ctx)
    ensures forall k :: 0 <= k < |r.contexts| ==> r.contexts[k] != ctx
    ensures |r.questions| == 0 ==> r.embeddings.None? && r.index.None?
    ensures r.threshold == c.threshold
  {
    var keep := KeepFrom(c.contexts, ctx, 0);
    assert c.contexts[0..] == c.contexts;
    var embeddings := if |keep| > 0 then Some(Pick(Rows(c), keep)) else None;
    var index :=
      if embeddings.Some? && |embeddings.value| > 0
      then Some(FlatIP(|embeddings.value[0]|, embeddings.value))
      else None;
    var r := Cache(c.threshold, Pick(c.questions, keep), Pick(c.answers, keep),
                   Pick(c.contexts, keep), embeddings, index);
    assert Entries(r) == Pick(Entries(c), keep) by {
      assert Rows(r) == Pick(Rows(c), keep);
    }
    PickKeepIsFilter(Entries(c), c.contexts, ctx, 0);
    assert Entries(c)[0..] == Entries(c);
    r
  }

  // ---------------------------------------------------------------------------
  // Persistence: the file holds a snapshot of the four collections.

  datatype Snapshot = Snapshot(
    questions: seq<string>,
    answers: seq<string>,
    contexts: seq<Context>,
    embeddings: seq<Vec>)

  /** What `save_cache` writes: the entries position by position, with absent
      embeddings written as an empty list. */
  function Save(c: Cache): (r: Snapshot)
    ensures c.embeddings.None? ==> r.embeddings == []
    ensures Parallel(c) ==>
              && |r.questions| == |r.answers| == |r.contexts| == |r.embeddings| == |Entries(c)|
              && forall k :: 0 <= k < |r.questions| ==>
                   Entries(c)[k] == Entry(r.questions[k], r.answers[k], r.contexts[k], r.embeddings[k])
  {
    Snapshot(c.questions, c.answers, c.contexts, Rows(c))
  }

  /** What `load_cache` builds from the file, or from its absence (`None`). */
  function Load(file: Option<Snapshot>, threshold: real): (c: Cache)
    ensures file.None? ==> c == Empty(threshold)
    ensures c.threshold == threshold
  {
    match file
    case None => Empty(threshold)
    case Some(s) =>
      var embeddings := if |s.embeddings| > 0 then Some(s.embeddings) else None;
      var index :=
        if embeddings.Some? && |embeddings.value| > 0
        then Some(FlatIP(|embeddings.value[0]|, embeddings.value))
        else None;
      Cache(threshold, s.questions, s.answers, s.contexts, embeddings, index)
  }

  // ---------------------------------------------------------------------------
  // Properties

  /** Loading what was saved gives back the same cache, index included. */
  lemma SaveLoadRoundTrip(c: Cache, dim: nat)
    requires Valid(c, dim)
    ensures Load(Some(Save(c)), c.threshold) == c
  {
    if c.embeddings.Some? {
      assert |c.embeddings.value[0]| == dim;
    }
  }

  /** Reloading a snapshot of the state `add` or `invalidate_for_context` produced
      gives that state back. */
  lemma MutationsSurviveReload(c: Cache, ops: VectorOps, q: string, a: string, ctx: Context, stale: Context)
    requires Valid(c, ops.dim) && EmbedderFixedDim(ops)
    ensures Load(Some(Save(Add(c, ops, q, a, ctx))), c.threshold) == Add(c, ops, q, a, ctx)
    ensures Parallel(c) && Load(Some(Save(InvalidateForContext(c, stale))), c.threshold) == InvalidateForContext(c, stale)
  {
    SaveLoadRoundTrip(Add(c, ops, q, a, ctx), ops.dim);
    ValidIsParallel(c, ops.dim);
    SaveLoadRoundTrip(InvalidateForContext(c, stale), ops.dim);
  }

  /** Adding an entry and then looking the same question up with the same context
      returns the new answer, provided the new row is the only top-1 neighbour of
      the question and scores at least `1 - threshold`; with any other context it misses. */
  lemma GetAfterAdd(c: Cache, ops: VectorOps, q: string, a: string, ctx: Context, other: Context)
    requires Valid(c, ops.dim) && WellFormed(ops)
    requires UniqueBestMatch(Add(c, ops, q, a, ctx), ops, q, |c.questions|)
    requires ops.sim(Embed(ops, q), Embed(ops, q)) >= 1.0 - c.threshold
    requires other != ctx
    ensures Get(Add(c, ops, q, a, ctx), ops, q, ctx) == Some(a)
    ensures Get(Add(c, ops, q, a, ctx), ops, q, other) == None
  {
    var r := Add(c, ops, q, a, ctx);
    var n := |c.questions|;
    assert Entries(r)[n] == Entry(q, a, ctx, Embed(ops, q));
    assert Rows(r)[n] == Embed(ops, q) && r.contexts[n] == ctx && r.answers[n] == a;
    assert HitAt(r, ops, q, ctx, n);
    var g := Get(r, ops, q, ctx);
    assert g.Some?;
    var i: nat :| BestMatch(r, ops, q, i) && HitAt(r, ops, q, ctx, i) && i < |r.answers| && g.value == r.answers[i];
    UniqueBestIsOnlyBest(r, ops, q, n, i);
  }

  lemma UniqueBestIsOnlyBest(c: Cache, ops: VectorOps, q: string, i: nat, j: nat)
    requires UniqueBestMatch(c, ops, q, i) && BestMatch(c, ops, q, j)
    ensures i == j
  {
  }

  /** The threshold boundary: similarity exactly `1 - threshold` to the sole
      top-1 entry with an equal context is a hit; anything below is a miss. */
  lemma ThresholdBoundary(c: Cache, ops: VectorOps, q: string, current: Context, i: nat)
    requires Valid(c, ops.dim) && SearchIsTop1(ops)
    requires UniqueBestMatch(c, ops, q, i) && c.contexts[i] == current
    ensures ops.sim(Embed(ops, q), Rows(c)[i]) == 1.0 - c.threshold ==> Get(c, ops, q, current) == Some(c.answers[i])
    ensures ops.sim(Embed(ops, q), Rows(c)[i]) < 1.0 - c.threshold ==> Get(c, ops, q, current) == None
  {
    var g := Get(c, ops, q, current);
    if g.Some? {
      var j: nat :| BestMatch(c, ops, q, j) && HitAt(c, ops, q, current, j) && j < |c.answers| && g.value == c.answers[j];
      UniqueBestIsOnlyBest(c, ops, q, i, j);
    }
  }

  /** A top-1 candidate with a different context is a miss, however similar it is
      and whatever a lower-ranked entry would have offered. */
  lemma ContextMismatchIsMiss(c: Cache, ops: VectorOps, q: string, current: Context, i: nat, j: nat)
    requires Valid(c, ops.dim) && SearchIsTop1(ops)
    requires UniqueBestMatch(c, ops, q, i) && c.contexts[i] != current
    requires HitAt(c, ops, q, current, j)
    ensures Get(c, ops, q, current) == None
  {
  }

  /** After invalidating `ctx`, every lookup under `ctx` misses, and when no entry
      survives every lookup misses. */
  lemma InvalidateThenGetMisses(c: Cache, ops: VectorOps, ctx: Context, q: string, current: Context)
    requires Valid(c, ops.dim) && SearchIsTop1(ops)
    ensures Get(InvalidateForContext(c, ctx), ops, q, ctx) == None
    ensures CountContext(c.contexts, ctx) == |c.questions| ==> Get(InvalidateForContext(c, ctx), ops, q, current) == None
  {
    var r := InvalidateForContext(c, ctx);
    assert Valid(r, ops.dim);
    assert forall i: nat :: !HitAt(r, ops, q, ctx, i);
  }

  /** Invalidating one context leaves a hit under another context intact: the
      uniquely best entry survives, stays uniquely best, and still answers. */
  lemma InvalidateKeepsOtherHits(c: Cache, ops: VectorOps, ctx: Context, q: string, cur: Context, i: nat)
    requires Valid(c, ops.dim) && SearchIsTop1(ops)
    requires UniqueBestMatch(c, ops, q, i) && HitAt(c, ops, q, cur, i) && cur != ctx
    ensures Get(InvalidateForContext(c, ctx), ops, q, cur) == Some(c.answers[i])
  {
    ValidIsParallel(c, ops.dim);
    var r := InvalidateForContext(c, ctx);
    assert Valid(r, ops.dim);
    ValidIsParallel(r, ops.dim);
    var e := Embed(ops, q);
    var score := (x: Entry) => ops.sim(e, x.embedding);
    var es := Entries(c);
    assert es[i].context == cur;
    forall j | 0 <= j < |es| && j != i
      ensures score(es[j]) < score(es[i])
    {
      assert es[j].embedding == Rows(c)[j] && es[i].embedding == Rows(c)[i];
    }
    var p := FilterOutKeepsUniqueBest(es, ctx, score, i);
    var fs := Entries(r);
    assert fs == FilterOut(es, ctx);
    assert Rows(r)[p] == fs[p].embedding == Rows(c)[i];
    forall m | 0 <= m < |Rows(r)| && m != p
      ensures ops.sim(e, Rows(r)[m]) < ops.sim(e, Rows(r)[p])
    {
      assert Rows(r)[m] == fs[m].embedding;
    }
    assert UniqueBestMatch(r, ops, q, p);
    assert r.contexts[p] == fs[p].context == cur;
    assert HitAt(r, ops, q, cur, p);
    var g := Get(r, ops, q, cur);
    assert g.Some?;
    var n: nat :| BestMatch(r, ops, q, n) && HitAt(r, ops, q, cur, n) && n < |r.answers| && g.value == r.answers[n];
    UniqueBestIsOnlyBest(r, ops, q, p, n);
    assert r.answers[p] == fs[p].answer == c.answers[i];
  }

  /** Every entry `FilterOut` keeps is an entry of its input; `j` is where it came from. */
  lemma {:induction false} FilterOutSubset(es: seq<Entry>, ctx: Context, m: nat) returns (j: nat)
    requires m < |FilterOut(es, ctx)|
    ensures j < |es| && FilterOut(es, ctx)[m] == es[j]
    decreases |es|
  {
    var head := if es[0].context != ctx then [es[0]] else [];
    assert FilterOut(es, ctx) == head + FilterOut(es[1..], ctx);
    if m < |head| {
      j := 0;
    } else {
      var j' := FilterOutSubset(es[1..], ctx, m - |head|);
      j := j' + 1;
    }
  }

  /** An entry outside `ctx` that scores strictly above every other entry survives
      `FilterOut` at position `p` and still scores strictly above every other survivor. */
  lemma {:induction false} FilterOutKeepsUniqueBest(es: seq<Entry>, ctx: Context, score: Entry -> real, i: nat)
    returns (p: nat)
    requires i < |es| && es[i].context != ctx
    requires forall j :: 0 <= j < |es| && j != i ==> score(es[j]) < score(es[i])
    ensures p < |FilterOut(es, ctx)| && FilterOut(es, ctx)[p] == es[i]
    ensures forall m :: 0 <= m < |FilterOut(es, ctx)| && m != p ==> score(FilterOut(es, ctx)[m]) < score(es[i])
    decreases |es|
  {
    var head := if es[0].context != ctx then [es[0]] else [];
    var rest := FilterOut(es[1..], ctx);
    assert FilterOut(es, ctx) == head + rest;
    if i == 0 {
      p := 0;
      forall m | 0 <= m < |head + rest| && m != p
        ensures score((head + rest)[m]) < score(es[i])
      {
        var j := FilterOutSubset(es[1..], ctx, m - 1);
        assert (head + rest)[m] == es[j + 1];
      }
    } else {
      forall j | 0 <= j < |es[1..]| && j != i - 1
        ensures score(es[1..][j]) < score(es[1..][i - 1])
      {
        assert es[1..][j] == es[j + 1];
      }
      var p' := FilterOutKeepsUniqueBest(es[1..], ctx, score, i - 1);
      p := |head| + p';
      forall m | 0 <= m < |head + rest| && m != p
        ensures score((head + rest)[m]) < score(es[i])
      {
        if m < |head| {
          assert (head + rest)[m] == es[0];
        } else {
          assert (head + rest)[m] == rest[m - |head|];
        }
      }
    }
  }
}

=== FILE: vectors.dfy ===
/** Embedding vectors and the cache's `_normalize` step, over exact reals.
    The square root is a parameter; `SqrtSpec` says what it must satisfy. */
module Vectors {

  type Vec = seq<real>

  function SumSq(v: Vec): (r: real)
    ensures r >= 0.0
  {
    if |v| == 0 then 0.0 else v[0] * v[0] + SumSq(v[1..])
  }

  function Scale(v: Vec, k: real): (r: Vec)
    ensures |r| == |v|
  {
    seq(|v|, i requires 0 <= i < |v| => v[i] * k)
  }

  /** The non-negative square root on non-negative reals. */
  ghost predicate SqrtSpec(sqrt: real -> real) {
    forall x :: x >= 0.0 ==> sqrt(x) >= 0.0 && sqrt(x) * sqrt(x) == x
  }

  ghost predicate IsZero(v: Vec) {
    forall i :: 0 <= i < |v| ==> v[i] == 0.0
  }

  /** Divide by the L2 norm when it is positive; otherwise return the vector unchanged. */
  function Normalize(v: Vec, sqrt: real -> real): (r: Vec)
    ensures |r| == |v|
  {
    var norm := sqrt(SumSq(v));
    if norm > 0.0 then Scale(v, 1.0 / norm) else v
  }

  lemma {:induction false} SumSqZeroIffZero(v: Vec)
    ensures SumSq(v) == 0.0 <==> IsZero(v)
  {
    if |v| > 0 {
      SumSqZeroIffZero(v[1..]);
      assert v[0] * v[0] >= 0.0;
      if IsZero(v) {
        assert v[0] == 0.0;
        assert IsZero(v[1..]) by {
          forall i | 0 <= i < |v[1..]| ensures v[1..][i] == 0.0 {
            assert v[1..][i] == v[i + 1];
          }
        }
      }
      if SumSq(v) == 0.0 {
        assert v[0] * v[0] == 0.0;
        SquareZero(v[0]);
        assert IsZero(v[1..]);
        forall i | 0 <= i < |v| ensures v[i] == 0.0 {
          if i > 0 {
            assert v[i] == v[1..][i - 1];
          }
        }
      }
    }
  }

  lemma SquareZero(x: real)
    requires x * x == 0.0
    ensures x == 0.0
  {
    if x != 0.0 {
      ProductZero(x, x);
    }
  }

  lemma ProductZero(x: real, y: real)
    requires x * y == 0.0 && y != 0.0
    ensures x == 0.0
  {
    assert x == (x * y) / y;
  }

  /** A zero vector is returned unchanged: no division by zero. */
  lemma NormalizeZeroVector(v: Vec, sqrt: real -> real)
    requires SqrtSpec(sqrt)
    requires IsZero(v)
    ensures Normalize(v, sqrt) == v
  {
    SumSqZeroIffZero(v);
    var n := sqrt(0.0);
    SquareZero(n);
  }

  /** Scaling a vector by `k` scales its sum of squares by `k * k`. */
  lemma SumSqScale(v: Vec, k: real)
    ensures SumSq(Scale(v, k)) == k * k * SumSq(v)
  {
    SumSqScaled(v, Scale(v, k), k);
  }

  /** A vector whose every component is `k` times the matching component of `v` has
      `k * k` times its sum of squares. */
  lemma {:induction false} SumSqScaled(v: Vec, w: Vec, k: real)
    requires |w| == |v|
    requires forall i :: 0 <= i < |v| ==> w[i] == v[i] * k
    ensures SumSq(w) == k * k * SumSq(v)
  {
    if |v| > 0 {
      ScaledTail(v, w, k);
      SumSqScaled(v[1..], w[1..], k);
      assert w[0] == v[0] * k;
      ScaleStep(v[0], k, w[0], SumSq(v[1..]), SumSq(w[1..]));
      ScaleCombine(SumSq(w), SumSq(v), w[0] * w[0] + SumSq(w[1..]), v[0] * v[0] + SumSq(v[1..]), k * k);
    }
  }

  /** The tails of pointwise-scaled vectors are pointwise scaled. */
  lemma ScaledTail(v: Vec, w: Vec, k: real)
    requires |w| == |v| > 0
    requires forall i :: 0 <= i < |v| ==> w[i] == v[i] * k
    ensures forall i :: 0 <= i < |v[1..]| ==> w[1..][i] == v[1..][i] * k
  {
    forall i | 0 <= i < |v[1..]| ensures w[1..][i] == v[1..][i] * k {
      assert w[1..][i] == w[i + 1] && v[1..][i] == v[i + 1];
    }
  }

  /** Folding the unfolded sums back: if the unfolded sums are related by `m`, so are the sums. */
  lemma ScaleCombine(sw: real, sv: real, uw: real, uv: real, m: real)
    requires sw == uw && sv == uv && uw == m * uv
    ensures sw == m * sv
  {
  }

  /** One step of `SumSqScaled`: the scaled head squared plus the scaled tail. */
  lemma ScaleStep(a: real, k: real, b: real, t: real, u: real)
    requires b == a * k && u == k * k * t
    ensures b * b + u == k * k * (a * a + t)
  {
    calc {
      b * b + u;
      (a * k) * (a * k) + k * k * t;
      k * k * (a * a) + k * k * t;
      k * k * (a * a + t);
    }
  }

  /** Scaling by the inverse of a positive root of `s` takes `s` to 1. */
  lemma InverseRootSquare(n: real, s: real)
    requires n > 0.0 && n * n == s
    ensures (1.0 / n) * (1.0 / n) * s == 1.0
  {
    var k := 1.0 / n;
    assert k * n == 1.0;
    calc {
      k * k * s;
      k * k * (n * n);
      (k * n) * (k * n);
      1.0;
    }
  }

  /** A non-negative root of a positive number is positive. */
  lemma RootPositive(n: real, s: real)
    requires n >= 0.0 && n * n == s && s > 0.0
    ensures n > 0.0
  {
    if n == 0.0 {
      assert false;
    }
  }

  /** The only non-negative square root of 1 is 1. */
  lemma RootOfOne(sqrt: real -> real)
    requires SqrtSpec(sqrt)
    ensures sqrt(1.0) == 1.0
  {
    var one := sqrt(1.0);
    assert one * one == 1.0 && one >= 0.0;
    assert (one - 1.0) * (one + 1.0) == 0.0;
    ProductZero(one - 1.0, one + 1.0);
  }

  /** A vector with positive norm comes out with unit norm. */
  lemma NormalizeUnitNorm(v: Vec, sqrt: real -> real)
    requires SqrtSpec(sqrt)
    requires SumSq(v) > 0.0
    ensures SumSq(Normalize(v, sqrt)) == 1.0
  {
    var s := SumSq(v);
    var n := sqrt(s);
    assert n >= 0.0 && n * n == s;
    RootPositive(n, s);
    assert Normalize(v, sqrt) == Scale(v, 1.0 / n);
    SumSqScale(v, 1.0 / n);
    InverseRootSquare(n, s);
  }

  /** Normalising twice gives the same vector as normalising once. */
  lemma NormalizeIdempotent(v: Vec, sqrt: real -> real)
    requires SqrtSpec(sqrt)
    requires SumSq(v) > 0.0
    ensures Normalize(Normalize(v, sqrt), sqrt) == Normalize(v, sqrt)
  {
    var u := Normalize(v, sqrt);
    NormalizeUnitNorm(v, sqrt);
    RootOfOne(sqrt);
    assert sqrt(SumSq(u)) == 1.0;
    assert Normalize(u, sqrt) == Scale(u, 1.0 / 1.0);
    assert Scale(u, 1.0) == u by {
      forall i | 0 <= i < |u| ensures Scale(u, 1.0)[i] == u[i] {
        assert Scale(u, 1.0)[i] == u[i] * 1.0;
      }
    }
  }
}

=== FILE: wrappers.dfy ===
/** Failure-carrying values used across the model.
    A Python exception is modelled as `Err(message)`, where `message` is what `str(e)` would give. */
module Wrappers {

  datatype Option<+T> = None | Some(value: T) {
    function GetOr(default: T): T {
      match this
      case Some(v) => v
      case None => default
    }
  }

  datatype Result<+T> = Ok(value: T) | Err(error: string)

  /** Python's `s.startswith(p)`. */
  predicate StartsWith(s: string, p: string) {
    |p| <= |s| && s[..|p|] == p
  }

  /** Python's `s[:n]` for a non-negative `n`. */
  function Take(s: string, n: nat): (r: string)
    ensures |r| == if |s| < n then |s| else n
    ensures StartsWith(s, r)
  {
    if |s| <= n then s else s[..n]
  }
}
